=== FILE: README.md ===
# room-chats: the client-side chat core, in Dafny

room-chats is a single-room realtime chat web client. Its logic is a thin
synchronisation layer, `ChatService` (lib/chat.ts). The layer keeps three things:

- a local list of messages;
- the set of message ids the viewer has hidden ("delete for me");
- a table of peers who are currently typing.

It reconciles these against a realtime backend. Around it sit a few pure
functions of the chat room screen, the typing indicator and the
authentication module.

This project models that core as immutable values and pure transitions, and
proves what each step promises:

- **The service state** is one record: room, viewer, messages, hidden ids and
  the typing table. Each realtime callback is a function from state to state:
  message INSERT/UPDATE/DELETE, hide INSERT/DELETE, typing broadcasts and
  expiring typing timers. Each public operation returns the new state together
  with the backend requests it would issue, in order. The operations are
  `init`, `sendMessage`, `sendFileMessage`, `deleteMessage`, `clearAllMessages`,
  `startTyping`, `stopTyping` and `dispose`. A guard that returns early issues
  no request. Query results and upload outcomes are inputs.
- **The typing table** is a sequence of entries with unique user ids, kept in
  insertion order. This is the iteration order of the JavaScript `Map` the
  source uses, and `getTypingList` exposes that order. Timers are deadlines on
  a logical millisecond clock:
  - a "start" arms a deadline 3000 ms ahead, and an event stamped with a time
    happens after every timer due by then has fired;
  - an entry's own timer removes it once the clock reaches its deadline;
  - `dispose` clears the table but leaves its timers running. The service
    state keeps them as stray timers, and a stray timer removes whatever entry
    its user has when it fires;
  - the timer of an entry removed by a stray timer is not cancelled either: it
    becomes a stray timer in turn;
  - every removal keeps the other entries in their order.
- **The realtime channels** deliver events only while they are open: from a
  successful `init` until `dispose`.
- **The chat room screen** contributes these functions:
  - the snapshot merge that removes duplicate ids;
  - the optimistic entry of an upload and its rollback;
  - the typing trigger on input changes, with its one-second stop timer;
  - grouping by day, where the day of a timestamp is a parameter because the
    source computes it with locale functions;
  - the "consecutive message" rule that hides repeated author headers;
  - avatar initials.
- **The typing indicator** contributes its sentence.
- **The authentication module** contributes the mapping of a backend identity
  to a user, the local guest login/logout kept in browser storage, and the
  current-user lookup.

Modules:

- `Wrappers`: `Option` and `Result`.
- `Text`: JavaScript `trim`, `split`, `join`, `toUpperCase` and `String(n)`, with their round trips.
- `Messages`: rows, `sid`, `mapDbToMessage` and list filtering.
- `Typing`: the typing table.
- `ChatService`: the service transitions and the chunked clear-all.
- `ChatServiceProofs`: the invariant over every event, idempotence and end-to-end behaviours.
- `ChatRoom`, `TypingIndicator`, `Auth`: the screen, the indicator and the session functions.

### Where the code and its documented behaviour differ

The model follows the code in each case:

- **Message order and duplicates.** The list is not kept sorted by time and may
  hold duplicate ids. The realtime INSERT appends in arrival order with no
  duplicate check (lib/chat.ts:155-156). The UPDATE handler replaces only the
  first message with the id.
- **Tombstones.** A message deleted for everyone stays on the list as the
  placeholder "This message was deleted.". It is not removed.
- **Write failures.** The backend client reports insert errors as values, not
  exceptions. So "delete for me" and "clear all" hide the ids locally whether
  or not their inserts succeeded (lib/chat.ts:321-326, 347-348).
- **Un-hiding.** A hide DELETE un-hides an id but does not bring the message back.

## Model

| member | source | states |
|---|---|---|
| Messages.Sid | lib/chat.ts:62 | The id of a string key is the key itself. The id of a numeric key reads back as that number, so two numeric keys never share an id. |
| Messages.SidNumberAndStringAgree | lib/chat.ts:62 | A numeric key and the string of its decimal digits name the same message. |
| Messages.MapDbToMessage | lib/chat.ts:228-244 | A tombstoned row shows exactly "This message was deleted." and has no file URL or type. Otherwise: null content is "", null username is "User", null user id is "". A file URL with type "image/*" is present exactly when the row is an image with a non-empty attachment URL, and that URL is the attachment's. |
| Messages.TombstoneKeepsIdentity | lib/chat.ts:228-244 | After the delete-for-everyone update, the mapped message keeps its id, author and time and becomes the placeholder without attachment. |
| Messages.FindIndex | lib/chat.ts:165 | `findIndex`: the first position holding the id, or -1 exactly when no message has it. |
| Messages.Without | lib/chat.ts:176 | `filter` by id: no kept message has a removed id. |
| Messages.WithoutKeeps | lib/chat.ts:176 | A message survives the filter exactly when it was listed and its id is not removed. |
| Messages.WithoutAppend | lib/chat.ts:176 | Filtering a concatenation filters each part, so relative order is kept. |
| Messages.WithoutIdempotent | lib/chat.ts:193 | Filtering by the same ids twice is filtering once. |
| Text.Trim | lib/chat.ts:264 | `trim` removes whitespace from both ends and never lengthens. |
| Text.TrimIsInfix | lib/chat.ts:264 | The trimmed string is a contiguous piece of the input, starting where the leading whitespace ends. |
| Text.TrimDropsWhitespace | lib/chat.ts:264 | Everything `trim` drops on either side of the result is whitespace. |
| Text.BlankIffAllWhitespace | lib/chat.ts:264 | `!content.trim()` holds exactly when every character is whitespace. |
| Text.FindFrom | lib/chat.ts:285 | The first position at or after the start that holds the character, or the length when none does. |
| Text.Split | lib/chat.ts:285 | `split` gives at least one piece. The first piece is the text before the first separator. There is a single piece exactly when the separator does not occur. |
| Text.SplitPiecesLackSeparator | lib/chat.ts:285 | No piece of a split contains the separator. |
| Text.LastPiece | lib/chat.ts:285 | `pop()` after `split` is the longest separator-free suffix: the whole string when the separator does not occur, and otherwise the text after the last separator. |
| Text.JoinSplit | components/chat-room.tsx:146 | Joining the pieces of a split with the same separator gives back the string. |
| Text.SplitJoin | components/chat-room.tsx:146 | Splitting a join of separator-free words gives back the words. |
| Text.Join | components/chat-room.tsx:146 | `join` of a single word is that word; with Text.JoinSplit and Text.SplitJoin it is the inverse of `split`. |
| Text.StartsWith | lib/chat.ts:281 | `startsWith`: the prefix is no longer than the string and equals its first characters. Used for the "image/" check. |
| Text.IntToStringRoundTrip | lib/chat.ts:62 | The decimal form of an integer reads back as that integer. |
| Text.IntToStringInjective | lib/chat.ts:62 | Distinct integers have distinct decimal forms. |
| Text.ToUpper | components/chat-room.tsx:146 | A lower-case letter becomes the matching upper-case letter. Any other character is unchanged. |
| Typing.IndexOf | lib/chat.ts:397 | The position of the user's entry, or -1 exactly when the user has none. |
| Typing.Get | lib/chat.ts:397 | `get` finds an entry exactly when the user has one, and the entry found is the user's. |
| Typing.Put | lib/chat.ts:405 | `set` on a present key replaces that entry in place and leaves the others. On a new key it appends. |
| Typing.FilterKeepsEntries | lib/chat.ts:401 | Removing entries keeps keys unique and leaves each surviving user's entry as it was. |
| Typing.FilterAppend | lib/chat.ts:400-412 | Removing entries from a table made of two parts removes them from each part on its own, so the kept entries stay in order. |
| Typing.FilterOne | lib/chat.ts:400-412 | A single entry is kept exactly when the condition holds for it. |
| Typing.Delete | lib/chat.ts:412 | After `delete` the user has no entry, and every other user's entry is still there. |
| Typing.DeleteInOrder | lib/chat.ts:409-414 | `delete` and `clearTyping` keep the other entries in their order: they act on each part of a table on its own, and an entry goes exactly when it is the user's. |
| Typing.Apply | lib/chat.ts:396-407 | `applyTyping` gives the user the entry with the given name and deadline now + 3000. Every other user's entry is unchanged, and keys stay unique. A user without an entry is appended at the end; a user with one keeps its place, so the order of the users is unchanged. |
| Typing.Clear | lib/chat.ts:409-414 | `clearTyping` removes the user's entry only. Keys stay unique. |
| Typing.Expire | lib/chat.ts:400-403 | After the timers due by `now` have fired, a user is still listed exactly when their deadline is after `now`, with the same entry. |
| Typing.DropUsers | lib/chat.ts:400-403 | The entries of the given users are gone. Every other entry stays, keys stay unique, and nothing is added. |
| Typing.DueUsers | lib/chat.ts:400-403 | Exactly the users with a timer due by `now`. |
| Typing.ExpireInOrder | lib/chat.ts:400-403 | Firing the due timers keeps the live entries in their order: each part of a table loses its expired entries on its own, and an entry stays exactly when its deadline is after `now`. |
| Typing.DropUsersInOrder | lib/chat.ts:400-403 | Dropping users keeps the other entries in their order; an entry goes exactly when its user is dropped. |
| Typing.KeepUsers | lib/chat.ts:400-403 | The entries of the given users and only those: the entries whose timers keep running after a stray timer of their user has removed them. |
| Typing.KeepUsersInOrder | lib/chat.ts:400-403 | Those entries are taken in table order; an entry is taken exactly when its user is given. |
| Typing.FireStrays | lib/chat.ts:400-403 | The timers still running once those due by `now` have fired: every stray not yet due, and the not-yet-due timer of every entry a due stray removed. Every timer kept is one of those. |
| Typing.List | lib/chat.ts:384-389 | `getTypingList` lists every entry in map order. An empty name becomes "Someone" and any other name is kept. |
| ChatService.Fresh | lib/chat.ts:66-71 | The service starts with no messages, no hidden ids, no typing peers, no stray timers and no open channel, and the invariant holds. |
| ChatService.HiddenIdsOf | lib/chat.ts:141 | The hidden set holds exactly the string ids of the viewer's hide rows. |
| ChatService.MapRows | lib/chat.ts:143 | Every fetched row is mapped, in fetched order. |
| ChatService.Init | lib/chat.ts:81-143 | Viewer and room are recorded first. A failed message query or hide query yields that error and opens no channel. Otherwise the hidden set comes from the hide rows, the list is the mapped rows without the hidden ones, so nothing hidden is shown, and the channels are open. |
| ChatService.OnMessageInsert | lib/chat.ts:152-159 | A hidden id changes nothing. Otherwise the mapped row is appended at the end and the rest is unchanged. |
| ChatService.OnMessageUpdate | lib/chat.ts:162-171 | The first message with the row's id is replaced by the mapped row. The length never changes, and an absent id changes nothing. |
| ChatService.OnMessageDelete | lib/chat.ts:174-178 | The list becomes the id filter of the old one: every message with the deleted id goes, and all others stay. |
| ChatService.OnHideInsert | lib/chat.ts:187-197 | A hide row of the viewer adds the id to the hidden set. If the id was not hidden yet, the list becomes the id filter of the old one: the message goes and all others stay. An id hidden already, or a row of another user, changes nothing. |
| ChatService.OnHideDelete | lib/chat.ts:200-208 | A hide row of the viewer removes the id from the hidden set and leaves the list unchanged. Rows of other users change nothing. |
| ChatService.OnTypingBroadcast | lib/chat.ts:215-223 | The timers due by `now` fire first. Broadcasts with an empty id or the viewer's own id change nothing more. "start" arms the peer until now + 3000, and any other action removes it. Other peers keep their entries. A peer with no live entry, because it had none or its timer or a stray timer has fired, is appended at the end of the table. |
| ChatService.OnTypingTimers | lib/chat.ts:400-403 | Every entry left is live and comes from the table. A peer is still listed exactly when its deadline is after the clock and no stray timer of that peer is due, and it keeps its entry. Stray timers due by the clock are gone, and the others remain. A live entry removed by a due stray timer of its user leaves its own timer running as a new stray. No other timer becomes a stray. |
| ChatService.StartTyping | lib/chat.ts:356-365 | After the timers due by `now`, the user's own entry is armed locally and other users keep theirs, then one "start" broadcast with the name is sent. |
| ChatService.StopTyping | lib/chat.ts:368-375 | The user's own entry is cleared, then one "stop" broadcast without a name is sent. |
| ChatService.Dispose | lib/chat.ts:417-424 | The typing table and the typing list become empty and the channels close. Every timer of the cleared table is kept as a stray, with the earlier strays. Messages, hidden ids and viewer are kept. |
| ChatService.DisposeCancellingTimers | lib/chat.ts:417-424 | The corrected `dispose`: the table, the typing list and the channels are closed as before, and no new stray timer is left. |
| ChatService.TypingList | lib/chat.ts:384-389 | One user per table entry, in table order, never with an empty name. |
| ChatService.SendMessage | lib/chat.ts:263-277 | Whitespace-only content issues nothing and changes nothing. Otherwise one text insert is issued, then the sender's typing stops. The list waits for the realtime INSERT. |
| ChatService.FileExtension | lib/chat.ts:285 | The extension is non-empty and has no dot. For an empty name or a name ending in a dot it is "png". Otherwise it is the longest dot-free suffix of the name: the whole name without a dot, else the text after the last dot. |
| ChatService.SendFileMessage | lib/chat.ts:280-304 | A missing file or a type outside "image/" is rejected with the source's message before any request. A failed upload issues only the upload. A successful one issues the upload, then the image insert with the public URL. |
| ChatService.DeleteMessage | lib/chat.ts:307-329 | An empty id issues nothing. Delete for everyone issues only the tombstone update. Delete for me issues one hide insert and hides the id, and the list becomes the id filter of the old one. |
| ChatService.VisibleIds | lib/chat.ts:334 | The listed ids that are not hidden, in list order. When nothing hidden is listed, these are all the list's ids. |
| ChatService.Chunks | lib/chat.ts:338-340 | The chunks concatenate back to the ids. Each chunk holds 1 to 100 ids, and all but the last hold exactly 100. |
| ChatService.ChunkIds | lib/chat.ts:338-340 | The chunking loop computes exactly those chunks. |
| ChatService.HideChunks | lib/chat.ts:342-349 | One hide insert per chunk, in order. Afterwards every chunked id is hidden. |
| ChatService.ClearAllMessages | lib/chat.ts:332-353 | With no visible id, nothing happens. Otherwise the visible ids are inserted in chunks of 100, all of them end up hidden, the list ends up empty, and typing is untouched. It keeps the invariant: no hidden message listed, typing keys unique. |
| ChatServiceProofs.Realtime | lib/chat.ts:146-223 | The events the realtime channels deliver: message INSERT/UPDATE/DELETE, hide INSERT/DELETE and typing broadcasts. |
| ChatServiceProofs.Next | lib/chat.ts:146-223 | Each event runs its handler. Only `init` opens the channels, and only when both queries succeed. Only `dispose` closes them. While they are closed, a realtime event changes nothing. |
| ChatServiceProofs.Run | lib/chat.ts:146-223 | The events of a sequence, one after the other. |
| ChatServiceProofs.ClosedIgnoresRealtime | lib/chat.ts:417-421 | Before `init` and after `dispose`, any sequence of realtime events leaves the service exactly as it was. |
| ChatServiceProofs.InitEstablishesInv | lib/chat.ts:141-143 | A successful `init` shows no hidden message and keeps typing keys unique. |
| ChatServiceProofs.NextPreservesInv | lib/chat.ts:152-223 | Every event of `Next` keeps hidden messages off the list and typing keys unique: every realtime callback, `init`, the timers, `startTyping`, `stopTyping`, `sendMessage`, `deleteMessage` and `dispose`. `clearAllMessages` keeps it by its own contract (ChatService.ClearAllMessages). |
| ChatServiceProofs.RunPreservesInv | lib/chat.ts:152-223 | The same holds after any sequence of events. |
| ChatServiceProofs.DeleteForMeIdempotent | lib/chat.ts:319-327 | Deleting the same message for oneself twice is deleting it once. |
| ChatServiceProofs.HideInsertIdempotent | lib/chat.ts:187-197 | A repeated hide INSERT changes nothing more. |
| ChatServiceProofs.DeleteForMeThenEcho | lib/chat.ts:319-327 | When the viewer's own hide row comes back through the feed after delete-for-me, nothing changes, whether the row carries the id as a string or as the number it reads as. |
| ChatServiceProofs.InsertThenTombstone | lib/chat.ts:162-171 | A message inserted and then tombstoned is shown at the same position, with the same id, as the placeholder without attachment. |
| ChatServiceProofs.DeleteKeepsOrder | lib/chat.ts:174-178 | A realtime DELETE keeps the other messages in order: on a list made of two parts, each part is filtered on its own. |
| ChatServiceProofs.HideKeepsOrder | lib/chat.ts:187-197 | A hide INSERT of the viewer keeps the other messages in order, in the same way. |
| ChatServiceProofs.DeleteForMeKeepsOrder | lib/chat.ts:319-327 | Delete for me keeps the other messages in order, in the same way. |
| ChatServiceProofs.TimersKeepOrder | lib/chat.ts:400-403 | Firing the due timers keeps the surviving peers in table order: each part of the table loses its expired and stray-deleted entries on its own. |
| ChatServiceProofs.NoStrayStaysNone | lib/chat.ts:400-403 | Firing timers gives no stray timer to a user who had none. |
| ChatServiceProofs.TypingListedUntilLastStartExpires | lib/chat.ts:396-407 | A peer with no stray timer that sends "start" twice stays listed exactly until 3000 ms after the second "start". |
| ChatServiceProofs.StopRemovesPeer | lib/chat.ts:215-223 | Any action other than "start" removes the peer at once. |
| ChatServiceProofs.RestartInTimeKeepsOrder | lib/chat.ts:396-407 | A "start" from a peer whose entry is still live keeps the order of the users in the table. |
| ChatServiceProofs.RestartAfterDeadlineMovesToEnd | lib/chat.ts:396-407 | With peer a due first and peer b due later, a "start" from a after a's deadline but before b's lists b first, then a: the expired peer returns at the end. With u1 due at 3000, u2 at 4000 and a start from u1 at 3500, the list is [u2, u1]. |
| ChatServiceProofs.OnlyLaterPeerLeft | lib/chat.ts:400-403 | In that two-peer table, once a's deadline has passed and b's has not, the timers leave b alone. |
| ChatServiceProofs.ExpiredStartAppends | lib/chat.ts:396-407 | A "start" from a peer whose entry has expired appends the re-armed entry, due 3000 ms ahead, behind what the timers left. |
| ChatServiceProofs.ListsTwoPeers | lib/chat.ts:384-389 | A table of two named peers is listed as those two users, in table order. |
| ChatServiceProofs.DisposeThenRestartDropsEarly | lib/chat.ts:417-424 | As written: a peer typed before `dispose`, `init` runs again and succeeds, and the peer starts again. It is removed by its old timer 3000 ms after the earlier start, while its last start is still within 3000 ms. |
| ChatServiceProofs.StrayChainDropsEarly | lib/chat.ts:396-407 | As written: the old timer also leaves the re-armed entry's timer running. After another start at t2, the peer is removed 3000 ms after the previous start t1, not after t2. |
| ChatServiceProofs.DisposeCancellingKeepsRestart | lib/chat.ts:417-424 | With the corrected `dispose` and a successful `init` run again, that peer stays listed exactly until 3000 ms after its last start. |
| ChatServiceProofs.DisposeKeepsTimer | lib/chat.ts:417-424 | After a start, `dispose` and a successful `init`, the channels are open again, the table is empty, the new viewer is recorded, and the start's timer still runs as a stray. |
| ChatServiceProofs.RestartAfterDispose | lib/chat.ts:396-407 | A second start after `dispose` and a successful `init`, within three seconds of the first, lists the peer with the second deadline while the first start's timer still runs as a stray. |
| ChatServiceProofs.StartKeepsLiveStray | lib/chat.ts:396-407 | A start received while a stray timer is not yet due lists the peer until now + 3000 and leaves that stray running. |
| ChatServiceProofs.StrayPassesTimerOn | lib/chat.ts:400-403 | A due stray timer removes its user's live entry, and that entry's own timer keeps running as a stray. |
| ChatServiceProofs.StrayRestartDropsEarly | lib/chat.ts:396-407 | With the entry re-armed at t1 and a stray of the peer due by t2, a start at t2 lists the peer until t2 + 3000, yet the peer is gone at t1 + 3000. |
| ChatRoom.DisplayName | components/chat-room.tsx:64 | The name sent for the user: username, else email, else "User". It is never empty. |
| ChatRoom.DedupeFrom | components/chat-room.tsx:32-42 | The merged list never holds two entries with the same id, and no kept entry has an id seen before. |
| ChatRoom.Merge | components/chat-room.tsx:32-42 | The merge of screen and snapshot never holds two entries with the same id. Its content and order are stated by ChatRoom.MergeKeepsScreenThenAppends and ChatRoom.MergeIds. |
| ChatRoom.DedupeKeepsIds | components/chat-room.tsx:33-38 | Every id of the input that was not seen before appears in the merge, and no other id does. |
| ChatRoom.DedupeKeepsFirstOccurrence | components/chat-room.tsx:35-40 | Each kept entry is the first entry of its id in the input. |
| ChatRoom.MergeSnapshot | components/chat-room.tsx:32-42 | The merge loop with its `seen` set computes the reference merge. The result has unique ids, and its ids are exactly those on screen or in the snapshot. |
| ChatRoom.DedupeAppend | components/chat-room.tsx:35-40 | Merging a concatenation is merging the first part, then the second part minus the ids the first part listed. |
| ChatRoom.MergeKeepsScreenThenAppends | components/chat-room.tsx:35-40 | For a screen list with unique ids, the merge is that list unchanged, followed by the snapshot entries not on screen, first ones first. |
| ChatRoom.MergeKeepsFirstVersion | components/chat-room.tsx:35-40 | For an id on screen, the merge keeps the on-screen version over the snapshot's. |
| ChatRoom.MergeHidesTombstone | components/chat-room.tsx:32-42 | The merge as written: a message on screen whose tombstone arrives in the next snapshot keeps its old content. |
| ChatRoom.MergeIds | components/chat-room.tsx:32-42 | The merge holds every id on screen or in the snapshot, and no other. |
| ChatRoom.MergeScreenOnlyFromPrev | components/chat-room.tsx:35-40 | An entry of the merge whose id the snapshot lacks is an entry from the screen. |
| ChatRoom.MergeLatest | components/chat-room.tsx:32-42 | The corrected merge has the same ids in the same order and unique ids. An id the snapshot carries shows the snapshot's version. An id only on screen keeps its screen entry. |
| ChatRoom.MergeLatestShowsTombstone | components/chat-room.tsx:32-42 | With the corrected merge, the tombstone update shows the placeholder without attachment. |
| ChatRoom.Optimistic | components/chat-room.tsx:59-75 | The optimistic entry has the temporary id, the user's id and display name, the current time and no deletions. A text draft carries its content and no file; a file draft carries an empty content and the object URL, file name and type. |
| ChatRoom.Rollback | components/chat-room.tsx:121 | The rollback removes every entry with the temporary id and keeps the others. |
| ChatRoom.RollbackRemovesExactlyTemp | components/chat-room.tsx:121 | With messages arriving around the optimistic entry, the rollback removes exactly that entry and keeps the rest in order. |
| ChatRoom.HandleFileUpload | components/chat-room.tsx:108-123 | With no file or no user, nothing changes. A sent file leaves the optimistic entry at the end. A rejected type or a failed upload leaves the screen as it was. |
| ChatRoom.NonImageUploadLeavesScreen | components/chat-room.tsx:108-123 | A non-image file, which the service refuses, leaves the screen unchanged. |
| ChatRoom.OnInputChange | components/chat-room.tsx:78-91 | The input always takes the new value. A start is requested exactly when a user is signed in, the trimmed value is non-empty and typing has not started. Every keystroke re-arms the stop 1000 ms ahead. |
| ChatRoom.StopFollowsLastKeystroke | components/chat-room.tsx:86-90 | After two keystrokes, the stop fires exactly from 1000 ms after the second one. |
| ChatRoom.OneStartPerBurst | components/chat-room.tsx:82-85 | Once typing has started, later keystrokes before the stop request no further start. |
| ChatRoom.StartAgainAfterStop | components/chat-room.tsx:82-90 | After the stop fires, the next non-blank keystroke starts typing again. |
| ChatRoom.OnStopTimer | components/chat-room.tsx:87-90 | Once the clock reaches the pending stop's deadline, typing stops and one stop is requested for that user. Before that, or with no pending stop, nothing happens. |
| ChatRoom.OthersTyping | components/chat-room.tsx:46-48 | The screen's typing list never names the viewer and is no longer than the service's list. |
| ChatRoom.OthersTypingMembers | components/chat-room.tsx:46-48 | The screen's typing list holds exactly the service's users other than the viewer. |
| ChatRoom.OthersTypingAppend | components/chat-room.tsx:46-48 | The filter keeps the list order: on a list made of two parts, each part is filtered on its own. |
| ChatRoom.Group | components/chat-room.tsx:160-167 | The buckets by day. Their order is stated by ChatRoom.GroupFollowsFirstAppearance, and what they hold by the four grouping lemmas below. |
| ChatRoom.GroupFollowsFirstAppearance | components/chat-room.tsx:160-167 | The bucket keys are every day of the list once, in order of the day's first message: a new day's bucket comes after all existing ones. |
| ChatRoom.GroupKeysUnique | components/chat-room.tsx:160-167 | No two buckets share a day. |
| ChatRoom.GroupCoversEveryDay | components/chat-room.tsx:160-167 | Every message's day has a bucket. |
| ChatRoom.GroupBucketsAreDays | components/chat-room.tsx:160-167 | Every bucket is non-empty and holds exactly the messages of its day, in list order. |
| ChatRoom.GroupKeepsCount | components/chat-room.tsx:160-167 | The bucket sizes add up to the number of messages. |
| ChatRoom.IsConsecutive | components/chat-room.tsx:231-235 | The first message of a day is never consecutive, so it always shows its header. |
| ChatRoom.HeaderIndex | components/chat-room.tsx:231-235 | Every message is shown under the nearest earlier message that shows a header. All messages in between are consecutive and by the author that header names. |
| ChatRoom.Initials | components/chat-room.tsx:145-146 | At most two characters. A name not starting with a space yields its upper-cased first character first. A name without spaces yields its upper-cased first character. |
| ChatRoom.InitialsOfWords | components/chat-room.tsx:145-146 | For a name of space-separated words, the initials are the upper-cased first characters of the first two words, in order. |
| TypingIndicator.TypingText | components/typing-indicator.tsx:8-18 | Nothing is rendered exactly when nobody is typing. |
| TypingIndicator.TypingTextAgrees | components/typing-indicator.tsx:10-18 | The sentence starts with the first typist's name. It ends in " is typing..." exactly for one typist and in " are typing..." exactly for two or more. |
| TypingIndicator.SingularVerb | components/typing-indicator.tsx:11-12 | The singular ending appears exactly when one user is typing. |
| TypingIndicator.PluralVerb | components/typing-indicator.tsx:13-16 | The plural ending appears exactly when two or more users are typing. |
| TypingIndicator.TwoTypistsNamedInOrder | components/typing-indicator.tsx:13-14 | Two typists are both named, in list order, joined by " and ". |
| TypingIndicator.OthersCountReadsBack | components/typing-indicator.tsx:15-16 | With three or more typists, the number in the sentence reads back as the count of typists besides the first. |
| Auth.LocalPart | lib/auth.ts:19 | The local part of an email is its text before the first '@'. |
| Auth.UsernameOf | lib/auth.ts:19 | The username is the first non-empty value of user_name, full_name and the email's local part, else "user". It is never empty. |
| Auth.EmailUsernameIsLocalPart | lib/auth.ts:19 | Without metadata, the username of `local@domain` is `local`. |
| Auth.MapSupabaseUser | lib/auth.ts:17-26 | No identity maps to no user. Otherwise the id is copied and the username is never empty. A missing or empty email or avatar becomes undefined, and a present one is copied. |
| Auth.GuestLogin | lib/auth.ts:50-54 | A stored guest is kept unchanged. Only without one is a new guest made, with id "guest-…" and the hint or "guest" as name. |
| Auth.LoginWithGithub | lib/auth.ts:46-60 | The guest flow stores the guest. The backend flow fails exactly with the OAuth error and leaves storage alone. |
| Auth.Logout | lib/auth.ts:62-68 | The guest flow clears the stored guest. The backend sign-out leaves storage alone. |
| Auth.GetCurrentUser | lib/auth.ts:70-77 | The guest flow returns the stored guest. The backend flow returns no user whenever the backend reports an error, else the mapped identity. |
| Auth.SessionState | lib/auth.ts:90-93 | An auth change is authenticated exactly when the session has an identity. |
| Auth.GuestLoginIdempotent | lib/auth.ts:50-54 | Logging in as a guest again keeps the same guest. |
| Auth.GuestSessionLifecycle | lib/auth.ts:50-73 | In the guest flow, login then lookup finds the guest, and logout then lookup finds nobody. |

## Left out

- **Backend I/O.** Backend queries, inserts, updates, storage uploads, public URLs and channel subscriptions are not performed. Operations return the requests they would issue, and query results and upload outcomes are inputs. lib/supabase.ts is not part of this model.
- **Insert and update results.** The outcome of inserts and updates is not modelled. The source does not look at those results, except the upload's.
- **Demo path.** The demo/local path of `init` is left out (lib/chat.ts:85-122). It covers local storage, the broadcast channel, the seeding and the random ticker, which are browser I/O and random.
- **Listeners.** Listener sets and notifications are left out (lib/chat.ts:249-259, 379-394). A notified snapshot is the current list.
- **Timers.** Timers are deadlines on a logical clock, not wall-clock time. The realtime feed, the clock and user actions are a sequence of events, and each operation runs to completion before the next one. Interleavings at the `await` points of `clearAllMessages` and the other async operations are not modelled.
- **Random names.** The generated file name, the optimistic temporary id and the guest id suffix come from the clock and `Math.random`. Here they are the parameters `stamp`, `tempId` and `freshId`.
- **Number coercion.** The `Number(...)` coercion of ids in backend payloads only shapes requests (lib/chat.ts:313, 320, 345). Requests carry the string id.
- **Timestamps.** ISO timestamps are parsed into `Date` (lib/chat.ts:238). Rows carry the creation time in milliseconds.
- **Time formatting.** Time and date formatting and the day names "Today"/"Yesterday" are locale functions of the clock (components/chat-room.tsx:148-158). Grouping takes the day of a timestamp as a parameter.
- **Other screen handlers.** The rest of the screen's React handlers and rendering are left out: sending text, delete buttons, clear all, the "online" count and the JSX. hooks/use-auth.tsx, the auth form, the page and the layout are not part of this model. hooks/use-auth.tsx calls `fetchCurrentUser`, which lib/auth.ts does not define; lib/auth.ts defines `getCurrentUser`.
- **Guest polling.** The once-a-second polling of the stored guest in `onAuthStateChange` is left out (lib/auth.ts:80-89). The stored guest is a value: `None` when it is absent or unreadable.
- Text.ToUpper: upper-cases ASCII letters only. JavaScript's `toUpperCase` also maps other letters, some to two characters.
- ChatRoom.Initials: takes the first character of a word as one Unicode character. `charAt(0)` takes one UTF-16 code unit, which differs for characters outside the Basic Multilingual Plane.
- ChatRoom.MergeLatest: corrects the version shown for an id and still keeps every entry that is only on screen. Removals by the service stay visible, because the screen list also holds optimistic entries the service has not confirmed, and the source gives no way to tell the two apart.
- Messages.Sid: numbers are written in exact plain decimal. JavaScript's `String` differs above 2^53: it prints the shortest digits that read back as the same double, padded with zeros up to 1e21 (2^64 prints as "18446744073709552000"), and exponent form from 1e21 on. Backend ids never reach 2^53.

## Findings

| source | as written | input that shows it | evidently intended | confidence | as-written member | corrected member |
|---|---|---|---|---|---|---|
| components/chat-room.tsx:35-40 | The merge keeps the first entry of every id, and keeps every entry already on screen. The version on screen therefore always wins over the service's snapshot. | A message is on screen. It is then deleted for everyone, so the next snapshot holds its tombstone with the same id. The screen keeps the old content and attachment. | The service replaces the message with the placeholder precisely so that it is shown (comment at lib/chat.ts:167). The snapshot's version of an id should replace the screen's. | medium, not executed | ChatRoom.MergeHidesTombstone | ChatRoom.MergeLatestShowsTombstone |
| lib/chat.ts:417-424 | `dispose` clears the typing table without cancelling the expiry timers of its entries. A timer left running still deletes its user's entry when it fires. | Peer u2 starts at t=0, so its timer is due at 3000. The service is disposed at 1000 and initialised again, and u2 starts again at 2000. The old timer removes u2 at 3000, although its last start keeps it listed until 5000. That removal does not cancel the timer due at 5000 either: after another start at 4000, u2 is removed at 5000 instead of 7000 (ChatServiceProofs.StrayChainDropsEarly). | Clearing the table on clean-up should cancel its timers, as `applyTyping` and `clearTyping` cancel the timer of the entry they replace or remove (lib/chat.ts:398, 411). | low, not executed | ChatServiceProofs.DisposeThenRestartDropsEarly | ChatServiceProofs.DisposeCancellingKeepsRestart |

The service's event model (`ChatServiceProofs.Next`) follows the code as
written and uses `ChatService.Dispose`. The first-wins merge also keeps every
entry that is only on screen, so a message the service removed (a realtime
DELETE, a hide INSERT, delete-for-me) stays on screen while the screen
stays mounted. `ChatRoom.MergeLatest` corrects replaced versions only.

=== FILE: auth.dfy ===
/** The session component (lib/auth.ts): mapping a backend identity to the
app's `User`, the local guest login kept in browser storage, and the
current-user lookup. Browser storage is modelled as the stored value itself
(`None` when absent or unreadable), and backend answers are inputs.
 */
module Auth {
  import opened Wrappers
  import Text

  const FallbackUsername: string := "user"
  const GuestUsername: string := "guest"
  const GuestIdPrefix: string := "guest-"

  datatype UserMetadata = UserMetadata(userName: Option<string>, fullName: Option<string>, avatarUrl: Option<string>)

  /** The identity the backend reports. */
  datatype AuthUser = AuthUser(id: string, email: Option<string>, metadata: Option<UserMetadata>)

  /** The app's user record; `email` and `avatarUrl` are undefined when absent. */
  datatype User = User(id: string, username: string, email: Option<string>, avatarUrl: Option<string>)

  datatype AuthState = AuthState(user: Option<User>, isAuthenticated: bool)

  /** Whether the guest flow replaces the backend: the backend is disabled or
      GitHub login is switched off. */
  datatype AuthMode = BackendMode | GuestMode

  /** JavaScript truthiness of an optional string. */
  predicate Truthy(o: Option<string>) {
    o.Some? && o.value != ""
  }

  /** `email.split('@')[0]`: the part before the first '@'. */
  function LocalPart(email: string): (r: string)
    ensures '@' !in r
    ensures Text.StartsWith(email, r)
    ensures |r| < |email| ==> email[|r|] == '@'
    ensures '@' !in email ==> r == email
  {
    Text.Split(email, '@')[0]
  }

  /** The username chain: `user_name`, then `full_name`, then the local part of
      the email, each taken only when non-empty, and "user" otherwise. */
  function UsernameOf(u: AuthUser): (name: string)
    ensures name != ""
    ensures u.metadata.Some? && Truthy(u.metadata.value.userName) ==> name == u.metadata.value.userName.value
    ensures u.metadata.Some? && !Truthy(u.metadata.value.userName) && Truthy(u.metadata.value.fullName) ==>
      name == u.metadata.value.fullName.value
    ensures (u.metadata.None? || (!Truthy(u.metadata.value.userName) && !Truthy(u.metadata.value.fullName))) ==>
      (if u.email.Some? && LocalPart(u.email.value) != "" then name == LocalPart(u.email.value) else name == FallbackUsername)
  {
    if u.metadata.Some? && Truthy(u.metadata.value.userName) then u.metadata.value.userName.value
    else if u.metadata.Some? && Truthy(u.metadata.value.fullName) then u.metadata.value.fullName.value
    else if u.email.Some? && LocalPart(u.email.value) != "" then LocalPart(u.email.value)
    else FallbackUsername
  }

  /** `mapSupabaseUser`: no identity maps to no user; otherwise the id is
      copied, the username is never empty, and an empty or missing email or
      avatar becomes undefined. */
  function MapSupabaseUser(u: Option<AuthUser>): (r: Option<User>)
    ensures r.None? <==> u.None?
    ensures r.Some? ==> r.value.id == u.value.id && r.value.username == UsernameOf(u.value)
    ensures r.Some? ==> r.value.username != ""
    ensures r.Some? ==> (r.value.email.Some? <==> Truthy(u.value.email))
    ensures r.Some? && r.value.email.Some? ==> r.value.email == u.value.email
    ensures r.Some? ==> (r.value.avatarUrl.Some? <==> u.value.metadata.Some? && Truthy(u.value.metadata.value.avatarUrl))
    ensures r.Some? && r.value.avatarUrl.Some? ==> r.value.avatarUrl == u.value.metadata.value.avatarUrl
  {
    match u
    case None => None
    case Some(au) =>
      var avatar := if au.metadata.Some? && Truthy(au.metadata.value.avatarUrl) then au.metadata.value.avatarUrl else None;
      Some(User(au.id, UsernameOf(au), if Truthy(au.email) then au.email else None, avatar))
  }

  /** An email-derived username is the text before the '@' of that email. */
  lemma EmailUsernameIsLocalPart(id: string, local: string, domain: string)
    requires local != "" && '@' !in local
    ensures UsernameOf(AuthUser(id, Some(local + "@" + domain), None)) == local
  {
    var email := local + "@" + domain;
    assert email[|local|] == '@';
    var lp := LocalPart(email);
    assert email[..|lp|] == lp;
    assert email[..|local|] == local;
  }

  /** The guest flow of `loginWithGithub`: a stored guest is kept as it is;
      only when none is stored is a new one made, named by the hint or "guest".
      `freshId` stands for the random suffix of the new guest's id. */
  function GuestLogin(stored: Option<User>, hint: Option<string>, freshId: string): (r: User)
    ensures stored.Some? ==> r == stored.value
    ensures stored.None? ==> r.id == GuestIdPrefix + freshId && r.email == None && r.avatarUrl == None
    ensures stored.None? ==> r.username == (if Truthy(hint) then hint.value else GuestUsername) && r.username != ""
  {
    match stored
    case Some(u) => u
    case None => User(GuestIdPrefix + freshId, if Truthy(hint) then hint.value else GuestUsername, None, None)
  }

  /** `loginWithGithub`: the result is the stored guest afterwards, or the
      OAuth error. In backend mode the stored guest is not touched. */
  function LoginWithGithub(mode: AuthMode, stored: Option<User>, hint: Option<string>, freshId: string,
                           oauthError: Option<string>): (r: Result<Option<User>, string>)
    ensures mode == GuestMode ==> r == Ok(Some(GuestLogin(stored, hint, freshId)))
    ensures mode == BackendMode ==> (r.Err? <==> oauthError.Some?)
    ensures mode == BackendMode && r.Err? ==> r.error == oauthError.value
    ensures mode == BackendMode && r.Ok? ==> r.value == stored
  {
    match mode
    case GuestMode => Ok(Some(GuestLogin(stored, hint, freshId)))
    case BackendMode => if oauthError.Some? then Err(oauthError.value) else Ok(stored)
  }

  /** `logout`: the guest flow clears the stored guest; the backend sign-out
      leaves browser storage alone. */
  function Logout(mode: AuthMode, stored: Option<User>): (r: Option<User>)
    ensures mode == GuestMode ==> r == None
    ensures mode == BackendMode ==> r == stored
  {
    if mode == GuestMode then None else stored
  }

  /** `getCurrentUser`: the stored guest in guest mode; in backend mode no user
      whenever the backend reports an error, else the mapped identity. */
  function GetCurrentUser(mode: AuthMode, stored: Option<User>, backend: Result<Option<AuthUser>, string>): (r: Option<User>)
    ensures mode == GuestMode ==> r == stored
    ensures mode == BackendMode && backend.Err? ==> r == None
    ensures mode == BackendMode && backend.Ok? ==> r == MapSupabaseUser(backend.value)
  {
    if mode == GuestMode then stored
    else match backend
      case Err(_) => None
      case Ok(u) => MapSupabaseUser(u)
  }

  /** The state `onAuthStateChange` reports for a session's identity. */
  function SessionState(sessionUser: Option<AuthUser>): (st: AuthState)
    ensures st.isAuthenticated <==> sessionUser.Some?
    ensures st.user == MapSupabaseUser(sessionUser)
  {
    var u := MapSupabaseUser(sessionUser);
    AuthState(u, u.Some?)
  }

  /** Guest login is idempotent: logging in again keeps the same guest. */
  lemma GuestLoginIdempotent(stored: Option<User>, hint: Option<string>, id1: string, hint2: Option<string>, id2: string)
    ensures GuestLogin(Some(GuestLogin(stored, hint, id1)), hint2, id2) == GuestLogin(stored, hint, id1)
  {
  }

  /** In guest mode, login then lookup finds the guest; logout then lookup finds nobody. */
  lemma GuestSessionLifecycle(stored: Option<User>, hint: Option<string>, freshId: string,
                              backend: Result<Option<AuthUser>, string>)
    ensures var after := LoginWithGithub(GuestMode, stored, hint, freshId, None);
      && after.Ok? && after.value.Some?
      && GetCurrentUser(GuestMode, after.value, backend) == Some(GuestLogin(stored, hint, freshId))
      && GetCurrentUser(GuestMode, Logout(GuestMode, after.value), backend) == None
  {
  }
}

=== FILE: chat_room.dfy ===
/** The pure logic of the chat room screen (components/chat-room.tsx): how a
service snapshot is merged into the list on screen, the optimistic entry of an
upload and its rollback, when typing starts and stops as the input changes,
the grouping of messages by day, which messages repeat their author header, and
the initials shown in the avatar.

Times are milliseconds on a logical clock. The day of a timestamp is locale
dependent in the source, so grouping takes it as a parameter `dayKey`.
 */
module ChatRoom {
  import opened Wrappers
  import opened Messages
  import Text
  import Auth
  import Typing
  import ChatService

  /** Delay after the last keystroke before typing is reported as stopped. */
  const StopTypingDelayMs: int := 1000
  /** Two messages of one author closer than this share one header. */
  const ConsecutiveWindowMs: int := 300000

  /** `user.username || user.email || "User"`: the name the screen sends with
      the user's own messages and typing. */
  function DisplayName(u: Auth.User): (name: string)
    ensures name != ""
    ensures u.username != "" ==> name == u.username
    ensures u.username == "" && Auth.Truthy(u.email) ==> name == u.email.value
    ensures u.username == "" && !Auth.Truthy(u.email) ==> name == DefaultUsername
  {
    if u.username != "" then u.username
    else if Auth.Truthy(u.email) then u.email.value
    else DefaultUsername
  }

  // ---------------------------------------------------------------------------
  // Merging a service snapshot into the list on screen
  // ---------------------------------------------------------------------------

  function IdSet(ms: seq<Message>): (r: set<string>)
    ensures forall id :: id in r <==> HasId(ms, id)
  {
    set k | 0 <= k < |ms| :: ms[k].id
  }

  predicate UniqueIds(ms: seq<Message>) {
    forall i, j :: 0 <= i < j < |ms| ==> ms[i].id != ms[j].id
  }

  /** Reference definition of the merge loop: walking `ms` front to back, an
      entry is kept when its id is neither in `seen` nor on an earlier entry. */
  function DedupeFrom(ms: seq<Message>, seen: set<string>): (r: seq<Message>)
    ensures UniqueIds(r)
    ensures forall k :: 0 <= k < |r| ==> r[k].id !in seen
    decreases |ms|
  {
    if |ms| == 0 then []
    else if ms[0].id in seen then DedupeFrom(ms[1..], seen)
    else [ms[0]] + DedupeFrom(ms[1..], seen + {ms[0].id})
  }

  /** The merge keeps every id not seen before, and no other. */
  lemma {:induction false} DedupeKeepsIds(ms: seq<Message>, seen: set<string>)
    ensures forall id :: HasId(DedupeFrom(ms, seen), id) <==> HasId(ms, id) && id !in seen
    decreases |ms|
  {
    if |ms| > 0 {
      var seen' := if ms[0].id in seen then seen else seen + {ms[0].id};
      var rest := DedupeFrom(ms[1..], seen');
      DedupeKeepsIds(ms[1..], seen');
      var r := DedupeFrom(ms, seen);
      forall id ensures HasId(r, id) <==> HasId(ms, id) && id !in seen {
        HasIdCons(ms, id);
        if ms[0].id !in seen {
          assert r[1..] == rest;
          HasIdCons(r, id);
        }
      }
    }
  }

  /** Each kept entry is the first occurrence of its id. */
  lemma {:induction false} DedupeKeepsFirstOccurrence(ms: seq<Message>, seen: set<string>)
    ensures forall k :: 0 <= k < |DedupeFrom(ms, seen)| ==>
      FindIndex(ms, DedupeFrom(ms, seen)[k].id) >= 0 && ms[FindIndex(ms, DedupeFrom(ms, seen)[k].id)] == DedupeFrom(ms, seen)[k]
    decreases |ms|
  {
    if |ms| > 0 {
      var seen' := if ms[0].id in seen then seen else seen + {ms[0].id};
      var rest := DedupeFrom(ms[1..], seen');
      DedupeKeepsFirstOccurrence(ms[1..], seen');
      var r := DedupeFrom(ms, seen);
      assert r == if ms[0].id in seen then rest else [ms[0]] + rest;
      forall k | 0 <= k < |r| ensures FindIndex(ms, r[k].id) >= 0 && ms[FindIndex(ms, r[k].id)] == r[k] {
        if ms[0].id in seen || k > 0 {
          var k' := if ms[0].id in seen then k else k - 1;
          assert rest[k'] == r[k];
          assert r[k].id != ms[0].id;
          assert 0 <= k' < |rest|;
          assert FindIndex(ms[1..], rest[k'].id) >= 0 && ms[1..][FindIndex(ms[1..], rest[k'].id)] == rest[k'];
          var i := FindIndex(ms[1..], r[k].id);
          assert ms[1..][i] == r[k];
          assert FindIndex(ms, r[k].id) == i + 1;
        } else {
          assert FindIndex(ms, ms[0].id) == 0;
        }
      }
    }
  }

  /** The merge as the screen performs it: the list on screen followed by the
      snapshot, keeping the first entry of every id. */
  function Merge(prev: seq<Message>, next: seq<Message>): (r: seq<Message>)
    ensures UniqueIds(r)
  {
    DedupeFrom(prev + next, {})
  }

  /** The merge loop of `onMessagesUpdate`, with its `seen` set. */
  method MergeSnapshot(prev: seq<Message>, next: seq<Message>) returns (merged: seq<Message>)
    ensures merged == Merge(prev, next)
    ensures UniqueIds(merged)
    ensures forall id :: HasId(merged, id) <==> HasId(prev, id) || HasId(next, id)
  {
    var all := prev + next;
    var seen: set<string> := {};
    merged := [];
    var i := 0;
    while i < |all|
      invariant 0 <= i <= |all|
      invariant merged + DedupeFrom(all[i..], seen) == DedupeFrom(all, {})
    {
      var m := all[i];
      DedupeStep(all, i, seen);
      if m.id !in seen {
        MoveToFront(merged, m, DedupeFrom(all[i + 1..], seen + {m.id}));
        seen := seen + {m.id};
        merged := merged + [m];
      }
      i := i + 1;
    }
    assert all[|all|..] == [];
    MergeIds(prev, next);
  }

  /** One step of the merge loop: the entry at `i` is kept exactly when its id
      is not seen yet. */
  lemma DedupeStep(ms: seq<Message>, i: int, seen: set<string>)
    requires 0 <= i < |ms|
    ensures DedupeFrom(ms[i..], seen) == if ms[i].id in seen then DedupeFrom(ms[i + 1..], seen)
      else [ms[i]] + DedupeFrom(ms[i + 1..], seen + {ms[i].id})
  {
    assert ms[i..][1..] == ms[i + 1..];
  }

  /** Moving the next kept entry from the pending list to the merged one keeps
      their concatenation. */
  lemma MoveToFront(merged: seq<Message>, m: Message, rest: seq<Message>)
    ensures (merged + [m]) + rest == merged + ([m] + rest)
  {
  }

  /** Dedupe works piecewise: the second part skips what the first part listed. */
  lemma {:induction false} DedupeAppend(a: seq<Message>, b: seq<Message>, seen: set<string>)
    ensures DedupeFrom(a + b, seen) == DedupeFrom(a, seen) + DedupeFrom(b, seen + IdSet(a))
    decreases |a|
  {
    if |a| == 0 {
      assert a + b == b;
      assert IdSet(a) == {};
      assert seen + IdSet(a) == seen;
    } else {
      var seen' := if a[0].id in seen then seen else seen + {a[0].id};
      DedupeAppend(a[1..], b, seen');
      assert (a + b)[1..] == a[1..] + b;
      assert seen' + IdSet(a[1..]) == seen + IdSet(a) by {
        forall id ensures id in seen' + IdSet(a[1..]) <==> id in seen + IdSet(a) {
          HasIdCons(a, id);
        }
      }
    }
  }

  /** A list with unique ids none of which is seen passes unchanged. */
  lemma {:induction false} DedupeNoop(ms: seq<Message>, seen: set<string>)
    requires UniqueIds(ms)
    requires forall k :: 0 <= k < |ms| ==> ms[k].id !in seen
    ensures DedupeFrom(ms, seen) == ms
    decreases |ms|
  {
    if |ms| > 0 {
      DedupeNoop(ms[1..], seen + {ms[0].id});
      assert [ms[0]] + ms[1..] == ms;
    }
  }

  /** The order the merge produces: the list on screen as it was, then the
      entries of the snapshot whose id was not on screen, first ones first.
      In particular no entry on screen is dropped or replaced. */
  lemma MergeKeepsScreenThenAppends(prev: seq<Message>, next: seq<Message>)
    requires UniqueIds(prev)
    ensures Merge(prev, next) == prev + DedupeFrom(next, IdSet(prev))
  {
    DedupeAppend(prev, next, {});
    DedupeNoop(prev, {});
    assert {} + IdSet(prev) == IdSet(prev);
  }

  /** The version the merge keeps for an id is its first one: the version on
      screen wins over the snapshot's. */
  lemma MergeKeepsFirstVersion(prev: seq<Message>, next: seq<Message>, k: int)
    requires 0 <= k < |prev|
    ensures exists j :: 0 <= j < |Merge(prev, next)| && Merge(prev, next)[j] == prev[FindIndex(prev, prev[k].id)]
  {
    var all := prev + next;
    var r := Merge(prev, next);
    DedupeKeepsIds(all, {});
    DedupeKeepsFirstOccurrence(all, {});
    assert all[k] == prev[k];
    assert HasId(r, prev[k].id);
    var j :| 0 <= j < |r| && r[j].id == prev[k].id;
    var i := FindIndex(prev, prev[k].id);
    assert all[i] == prev[i];
    assert FindIndex(all, prev[k].id) == i by {
      FindIndexPrefix(prev, next, prev[k].id);
    }
  }

  /** A first occurrence in a prefix is the first occurrence in the whole. */
  lemma {:induction false} FindIndexPrefix(a: seq<Message>, b: seq<Message>, id: string)
    requires HasId(a, id)
    ensures FindIndex(a + b, id) == FindIndex(a, id)
    decreases |a|
  {
    assert (a + b)[0] == a[0];
    if a[0].id != id {
      var k :| 0 <= k < |a| && a[k].id == id;
      assert a[1..][k - 1] == a[k];
      FindIndexPrefix(a[1..], b, id);
      assert (a + b)[1..] == a[1..] + b;
    }
  }

  /** The version of `m` in the snapshot, if the snapshot has one. */
  function Latest(m: Message, next: seq<Message>): (r: Message)
    ensures r.id == m.id
    ensures HasId(next, m.id) ==> r == next[FindIndex(next, m.id)]
    ensures !HasId(next, m.id) ==> r == m
  {
    var i := FindIndex(next, m.id);
    if i < 0 then m else next[i]
  }

  function Refresh(ms: seq<Message>, next: seq<Message>): (r: seq<Message>)
    ensures |r| == |ms|
    ensures forall k :: 0 <= k < |ms| ==> r[k] == Latest(ms[k], next)
  {
    if |ms| == 0 then [] else [Latest(ms[0], next)] + Refresh(ms[1..], next)
  }

  /** The merge with the snapshot's version winning: the same ids in the same
      order as `Merge`, but an id the snapshot carries shows the snapshot's
      version, so an update the service applied (a tombstone) reaches the
      screen. Entries only on screen (optimistic ones) are kept as they are. */
  function MergeLatest(prev: seq<Message>, next: seq<Message>): (r: seq<Message>)
    ensures |r| == |Merge(prev, next)|
    ensures forall k :: 0 <= k < |r| ==> r[k].id == Merge(prev, next)[k].id
    ensures UniqueIds(r)
    ensures forall id :: HasId(r, id) <==> HasId(prev, id) || HasId(next, id)
    ensures forall k :: 0 <= k < |r| && HasId(next, r[k].id) ==> r[k] == next[FindIndex(next, r[k].id)]
    ensures forall k :: 0 <= k < |r| && !HasId(next, r[k].id) ==> r[k] in prev
  {
    MergeIds(prev, next);
    MergeScreenOnlyFromPrev(prev, next);
    RefreshKeepsIds(Merge(prev, next), next);
    Refresh(Merge(prev, next), next)
  }

  /** Refreshing entries keeps their ids, so it keeps them unique. */
  lemma RefreshKeepsIds(ms: seq<Message>, next: seq<Message>)
    ensures forall id :: HasId(Refresh(ms, next), id) <==> HasId(ms, id)
    ensures UniqueIds(ms) ==> UniqueIds(Refresh(ms, next))
  {
    var r := Refresh(ms, next);
    assert forall k :: 0 <= k < |ms| ==> r[k].id == ms[k].id;
  }

  /** The merge shows every id of the screen and the snapshot, and no other. */
  lemma MergeIds(prev: seq<Message>, next: seq<Message>)
    ensures forall id :: HasId(Merge(prev, next), id) <==> HasId(prev, id) || HasId(next, id)
  {
    DedupeKeepsIds(prev + next, {});
    AppendHasId(prev, next);
  }

  /** An entry of the merge whose id the snapshot lacks came from the screen. */
  lemma MergeScreenOnlyFromPrev(prev: seq<Message>, next: seq<Message>)
    ensures forall k :: 0 <= k < |Merge(prev, next)| && !HasId(next, Merge(prev, next)[k].id) ==>
      Merge(prev, next)[k] in prev
  {
    var merged := Merge(prev, next);
    DedupeKeepsFirstOccurrence(prev + next, {});
    forall k | 0 <= k < |merged| && !HasId(next, merged[k].id) ensures merged[k] in prev {
      var i := FindIndex(prev + next, merged[k].id);
      assert (prev + next)[i] == merged[k];
    }
  }

  lemma AppendHasId(a: seq<Message>, b: seq<Message>)
    ensures forall id :: HasId(a + b, id) <==> HasId(a, id) || HasId(b, id)
  {
    forall id ensures HasId(a + b, id) <==> HasId(a, id) || HasId(b, id) {
      if HasId(a, id) {
        var k :| 0 <= k < |a| && a[k].id == id;
        assert (a + b)[k] == a[k];
      }
      if HasId(b, id) {
        var k :| 0 <= k < |b| && b[k].id == id;
        assert (a + b)[|a| + k] == b[k];
      }
      if HasId(a + b, id) {
        var k :| 0 <= k < |a + b| && (a + b)[k].id == id;
        if k >= |a| {
          assert b[k - |a|] == (a + b)[k];
        }
      }
    }
  }

  /** The merge as written never shows a deletion for everyone: a message on
      screen whose tombstone update arrives in the next snapshot keeps its old
      content and attachment. */
  lemma MergeHidesTombstone(row: DbMessage)
    requires !IsDeletedForAll(row) && row.content.GetOr("") != DeletedPlaceholder
    ensures Merge([MapDbToMessage(row)], [MapDbToMessage(MarkedDeleted(row))]) == [MapDbToMessage(row)]
    ensures MapDbToMessage(row).content != DeletedPlaceholder
  {
    var shown := MapDbToMessage(row);
    var tomb := MapDbToMessage(MarkedDeleted(row));
    assert tomb.id == shown.id;
    assert ([shown] + [tomb])[1..] == [tomb];
    assert [tomb][1..] == [];
    assert DedupeFrom([tomb], {shown.id}) == [];
    assert {} + {shown.id} == {shown.id};
    assert DedupeFrom([shown] + [tomb], {}) == [shown] + DedupeFrom([tomb], {shown.id});
  }

  /** With the snapshot's version winning, the same tombstone update shows the
      deletion placeholder, without attachment, in the message's place. */
  lemma MergeLatestShowsTombstone(prev: seq<Message>, row: DbMessage, k: int)
    requires 0 <= k < |prev| && prev[k].id == Sid(row.id)
    ensures exists j :: (0 <= j < |MergeLatest(prev, [MapDbToMessage(MarkedDeleted(row))])|
      && MergeLatest(prev, [MapDbToMessage(MarkedDeleted(row))])[j] == MapDbToMessage(MarkedDeleted(row)))
    ensures MapDbToMessage(MarkedDeleted(row)).content == DeletedPlaceholder
    ensures MapDbToMessage(MarkedDeleted(row)).fileUrl == None
  {
    var tomb := MapDbToMessage(MarkedDeleted(row));
    var r := MergeLatest(prev, [tomb]);
    assert HasId(prev, tomb.id);
    var j :| 0 <= j < |r| && r[j].id == tomb.id;
    assert HasId([tomb], r[j].id);
    assert FindIndex([tomb], tomb.id) == 0;
    assert r[j] == tomb;
  }

  // ---------------------------------------------------------------------------
  // Optimistic entries and the upload rollback
  // ---------------------------------------------------------------------------

  /** What the screen shows before the service confirms a send. */
  datatype Draft =
    | TextDraft(content: string)
    | FileDraft(objectUrl: string, fileName: string, fileType: string)

  /** `appendOptimistic`'s entry: the user's own message under a temporary id. */
  function Optimistic(user: Auth.User, tempId: string, draft: Draft, now: int): (m: Message)
    ensures m.id == tempId && m.userId == user.id && m.username == DisplayName(user)
    ensures m.timestamp == now && m.deletedFor == []
    ensures draft.TextDraft? ==> m.content == draft.content && m.fileUrl == None && m.fileName == None && m.fileType == None
    ensures draft.FileDraft? ==> (m.content == "" && m.fileUrl == Some(draft.objectUrl)
      && m.fileName == Some(draft.fileName) && m.fileType == Some(draft.fileType))
  {
    match draft
    case TextDraft(c) => Message(tempId, DisplayName(user), c, now, user.id, None, None, None, [])
    case FileDraft(url, name, kind) => Message(tempId, DisplayName(user), "", now, user.id, Some(url), Some(name), Some(kind), [])
  }

  /** The rollback of a failed upload: every entry with the temporary id goes. */
  function Rollback(shown: seq<Message>, tempId: string): (r: seq<Message>)
    ensures !HasId(r, tempId)
    ensures forall k :: 0 <= k < |shown| && shown[k].id != tempId ==> shown[k] in r
    ensures forall k :: 0 <= k < |r| ==> r[k] in shown
  {
    WithoutKeeps(shown, {tempId});
    Without(shown, {tempId})
  }

  /** Rolling back removes exactly the optimistic entry, whatever arrived
      around it in the meantime, and keeps everything else in order. */
  lemma RollbackRemovesExactlyTemp(a: seq<Message>, m: Message, b: seq<Message>)
    requires !HasId(a, m.id) && !HasId(b, m.id)
    ensures Rollback(a + [m] + b, m.id) == a + b
  {
    WithoutAppend(a + [m], b, {m.id});
    WithoutAppend(a, [m], {m.id});
    WithoutNoop(a, {m.id});
    WithoutNoop(b, {m.id});
  }

  lemma RollbackFresh(shown: seq<Message>, m: Message)
    ensures !HasId(shown, m.id) ==> Rollback(shown + [m], m.id) == shown
  {
    if !HasId(shown, m.id) {
      RollbackRemovesExactlyTemp(shown, m, []);
      assert shown + [m] + [] == shown + [m];
      assert shown + [] == shown;
    }
  }

  /** `handleFileUpload`: with no file or no user nothing happens; otherwise
      the optimistic entry is appended and, when `sendFileMessage` throws
      (a rejected type or a failed upload), removed again. A failed insert
      after the upload is not an exception there, so it is not rolled back. */
  function HandleFileUpload(shown: seq<Message>, user: Option<Auth.User>, file: Option<ChatService.FileInfo>,
                            tempId: string, objectUrl: string, now: int, sent: ChatService.FileSend): (r: seq<Message>)
    ensures file.None? || user.None? ==> r == shown
    ensures file.Some? && user.Some? && sent.Sent? ==>
      r == shown + [Optimistic(user.value, tempId, FileDraft(objectUrl, file.value.name, file.value.mimeType), now)]
    ensures file.Some? && user.Some? && !sent.Sent? ==> !HasId(r, tempId)
    ensures !HasId(shown, tempId) && !sent.Sent? ==> r == shown
  {
    if file.None? || user.None? then shown
    else
      var m := Optimistic(user.value, tempId, FileDraft(objectUrl, file.value.name, file.value.mimeType), now);
      if sent.Sent? then shown + [m]
      else
        RollbackFresh(shown, m);
        Rollback(shown + [m], tempId)
  }

  /** A file the service refuses (not an image) leaves the screen as it was. */
  lemma NonImageUploadLeavesScreen(shown: seq<Message>, user: Option<Auth.User>, file: ChatService.FileInfo,
                                   tempId: string, objectUrl: string, now: int,
                                   s: ChatService.State, stamp: string, upload: Result<string, string>)
    requires !Text.StartsWith(file.mimeType, ChatService.ImagePrefix) && !HasId(shown, tempId)
    ensures var sent := ChatService.SendFileMessage(s, "", "", Some(file), stamp, upload);
      HandleFileUpload(shown, user, Some(file), tempId, objectUrl, now, sent) == shown
  {
  }

  // ---------------------------------------------------------------------------
  // Typing while the input changes
  // ---------------------------------------------------------------------------

  /** The pending "stop typing" timer: when it fires and for whom. */
  datatype PendingStop = PendingStop(deadline: int, userId: string)

  /** The input box, the local typing flag and the stop timer. */
  datatype InputState = InputState(text: string, isTyping: bool, pendingStop: Option<PendingStop>)

  /** What the screen asks the chat service to do about typing. */
  datatype TypingRequest = RequestStart(userId: string, username: string) | RequestStop(userId: string)

  datatype InputStep = InputStep(state: InputState, requests: seq<TypingRequest>)

  const Idle: InputState := InputState("", false, None)

  /** `handleInputChange`: typing starts only for a signed-in user whose
      trimmed input is non-empty while not already typing; every keystroke of
      a signed-in user re-arms the stop timer one second ahead. */
  function OnInputChange(st: InputState, user: Option<Auth.User>, value: string, now: int): (r: InputStep)
    ensures r.state.text == value
    ensures user.None? ==> r == InputStep(st.(text := value), [])
    ensures r.requests != [] <==> user.Some? && !Text.IsBlank(value) && !st.isTyping
    ensures r.requests != [] ==> r.requests == [RequestStart(user.value.id, DisplayName(user.value))]
    ensures user.Some? ==> r.state.isTyping == (st.isTyping || !Text.IsBlank(value))
    ensures user.Some? ==> r.state.pendingStop == Some(PendingStop(now + StopTypingDelayMs, user.value.id))
  {
    match user
    case None => InputStep(st.(text := value), [])
    case Some(u) =>
      var starts := !Text.IsBlank(value) && !st.isTyping;
      InputStep(InputState(value, st.isTyping || starts, Some(PendingStop(now + StopTypingDelayMs, u.id))),
                if starts then [RequestStart(u.id, DisplayName(u))] else [])
  }

  /** The stop timer, once the clock reaches its deadline: typing stops. */
  function OnStopTimer(st: InputState, now: int): (r: InputStep)
    ensures st.pendingStop.Some? && st.pendingStop.value.deadline <= now ==>
      r == InputStep(st.(isTyping := false, pendingStop := None), [RequestStop(st.pendingStop.value.userId)])
    ensures !(st.pendingStop.Some? && st.pendingStop.value.deadline <= now) ==> r == InputStep(st, [])
  {
    match st.pendingStop
    case Some(p) => if p.deadline <= now then InputStep(st.(isTyping := false, pendingStop := None), [RequestStop(p.userId)])
                    else InputStep(st, [])
    case None => InputStep(st, [])
  }

  /** Debounce: after two keystrokes the stop comes one second after the
      second one, never one second after the first. */
  lemma StopFollowsLastKeystroke(st: InputState, u: Auth.User, v1: string, t1: int, v2: string, t2: int, now: int)
    requires t1 <= t2
    ensures var s1 := OnInputChange(st, Some(u), v1, t1).state;
      var s2 := OnInputChange(s1, Some(u), v2, t2).state;
      (OnStopTimer(s2, now).requests == [RequestStop(u.id)] <==> now >= t2 + StopTypingDelayMs)
      && (OnStopTimer(s2, now).requests == [] <==> now < t2 + StopTypingDelayMs)
  {
  }

  /** One start per burst: once typing has started, further keystrokes before
      the stop timer fires request nothing. */
  lemma OneStartPerBurst(st: InputState, u: Auth.User, v1: string, t1: int, v2: string, t2: int)
    requires !Text.IsBlank(v1)
    ensures var s1 := OnInputChange(st, Some(u), v1, t1).state;
      s1.isTyping && OnInputChange(s1, Some(u), v2, t2).requests == []
  {
  }

  /** After the stop fires, the next non-blank keystroke starts typing again. */
  lemma StartAgainAfterStop(st: InputState, u: Auth.User, v1: string, t1: int, v2: string, t2: int)
    requires t2 >= t1 + StopTypingDelayMs && !Text.IsBlank(v2)
    ensures var s1 := OnInputChange(st, Some(u), v1, t1).state;
      var s2 := OnStopTimer(s1, t2).state;
      OnInputChange(s2, Some(u), v2, t2).requests == [RequestStart(u.id, DisplayName(u))]
  {
  }

  /** The typing list the screen keeps: everybody but the viewer, in order. */
  function OthersTyping(users: seq<Typing.TypingUser>, viewerId: string): (r: seq<Typing.TypingUser>)
    ensures |r| <= |users|
    ensures forall k :: 0 <= k < |r| ==> r[k].userId != viewerId
  {
    if |users| == 0 then []
    else
      var rest := OthersTyping(users[1..], viewerId);
      if users[0].userId == viewerId then rest else [users[0]] + rest
  }

  /** Exactly the users other than the viewer are kept. */
  lemma {:induction false} OthersTypingMembers(users: seq<Typing.TypingUser>, viewerId: string)
    ensures forall u :: u in OthersTyping(users, viewerId) <==> u in users && u.userId != viewerId
  {
    if |users| > 0 {
      OthersTypingMembers(users[1..], viewerId);
      assert users == [users[0]] + users[1..];
    }
  }

  /** The filter keeps the list order: the others typing in a list made of
      two parts are those of the first part, then those of the second. */
  lemma {:induction false} OthersTypingAppend(a: seq<Typing.TypingUser>, b: seq<Typing.TypingUser>, viewerId: string)
    ensures OthersTyping(a + b, viewerId) == OthersTyping(a, viewerId) + OthersTyping(b, viewerId)
  {
    if |a| == 0 {
      assert a + b == b;
    } else {
      var head := if a[0].userId == viewerId then [] else [a[0]];
      assert OthersTyping(a + b, viewerId) == head + OthersTyping(a[1..] + b, viewerId) by {
        assert (a + b)[0] == a[0] && (a + b)[1..] == a[1..] + b;
      }
      OthersTypingAppend(a[1..], b, viewerId);
      assert head + (OthersTyping(a[1..], viewerId) + OthersTyping(b, viewerId))
        == (head + OthersTyping(a[1..], viewerId)) + OthersTyping(b, viewerId);
    }
  }

  // ---------------------------------------------------------------------------
  // Grouping by day
  // ---------------------------------------------------------------------------

  /** One day's bucket: its key and its messages in list order. */
  datatype DayGroup = DayGroup(key: string, messages: seq<Message>)

  /** Reference definition of a bucket: the messages of day `key`, in order. */
  function OnDay(ms: seq<Message>, dayKey: int -> string, key: string): seq<Message> {
    if |ms| == 0 then []
    else
      var front := OnDay(ms[..|ms| - 1], dayKey, key);
      if dayKey(ms[|ms| - 1].timestamp) == key then front + [ms[|ms| - 1]] else front
  }

  /** Position of the bucket with `key`, or -1. */
  function GroupIndex(gs: seq<DayGroup>, key: string): (i: int)
    ensures -1 <= i < |gs|
    ensures i >= 0 ==> gs[i].key == key
    ensures i < 0 ==> forall k :: 0 <= k < |gs| ==> gs[k].key != key
  {
    if |gs| == 0 then -1
    else if gs[|gs| - 1].key == key then |gs| - 1
    else GroupIndex(gs[..|gs| - 1], key)
  }

  predicate UniqueKeys(gs: seq<DayGroup>) {
    forall i, j :: 0 <= i < j < |gs| ==> gs[i].key != gs[j].key
  }

  function Count(gs: seq<DayGroup>): nat {
    if |gs| == 0 then 0 else Count(gs[..|gs| - 1]) + |gs[|gs| - 1].messages|
  }

  /** `(map[key] ||= []).push(m)`: into the existing bucket, or a new bucket
      at the end (object keys that are not integers keep insertion order). */
  function AddToGroup(gs: seq<DayGroup>, key: string, m: Message): (r: seq<DayGroup>)
    ensures GroupIndex(gs, key) >= 0 ==> r == gs[GroupIndex(gs, key) := DayGroup(key, gs[GroupIndex(gs, key)].messages + [m])]
    ensures GroupIndex(gs, key) < 0 ==> r == gs + [DayGroup(key, [m])]
  {
    var i := GroupIndex(gs, key);
    if i < 0 then gs + [DayGroup(key, [m])] else gs[i := DayGroup(key, gs[i].messages + [m])]
  }

  /** `grouped`: the messages bucketed by day, the buckets in order of first
      appearance. */
  function Group(ms: seq<Message>, dayKey: int -> string): seq<DayGroup> {
    if |ms| == 0 then []
    else AddToGroup(Group(ms[..|ms| - 1], dayKey), dayKey(ms[|ms| - 1].timestamp), ms[|ms| - 1])
  }

  /** A day with no message has an empty bucket. */
  lemma {:induction false} OnDayEmpty(ms: seq<Message>, dayKey: int -> string, key: string)
    requires forall k :: 0 <= k < |ms| ==> dayKey(ms[k].timestamp) != key
    ensures OnDay(ms, dayKey, key) == []
  {
    if |ms| > 0 {
      OnDayEmpty(ms[..|ms| - 1], dayKey, key);
    }
  }

  lemma {:induction false} CountUpdate(gs: seq<DayGroup>, i: int, g: DayGroup)
    requires 0 <= i < |gs|
    ensures Count(gs[i := g]) == Count(gs) - |gs[i].messages| + |g.messages|
    decreases |gs|
  {
    var n := |gs| - 1;
    assert gs[i := g][..n] == if i == n then gs[..n] else gs[..n][i := g];
    if i < n {
      CountUpdate(gs[..n], i, g);
    }
  }

  /** No two buckets share a day. */
  lemma {:induction false} GroupKeysUnique(ms: seq<Message>, dayKey: int -> string)
    ensures UniqueKeys(Group(ms, dayKey))
  {
    if |ms| > 0 {
      GroupKeysUnique(ms[..|ms| - 1], dayKey);
    }
  }

  /** Every message's day has a bucket. */
  lemma {:induction false} GroupCoversEveryDay(ms: seq<Message>, dayKey: int -> string)
    ensures forall k :: 0 <= k < |ms| ==> GroupIndex(Group(ms, dayKey), dayKey(ms[k].timestamp)) >= 0
  {
    if |ms| > 0 {
      var n := |ms| - 1;
      var front := ms[..n];
      GroupCoversEveryDay(front, dayKey);
      var gs0 := Group(front, dayKey);
      var gs := Group(ms, dayKey);
      var key := dayKey(ms[n].timestamp);
      var i := GroupIndex(gs0, key);
      forall k | 0 <= k < |ms| ensures GroupIndex(gs, dayKey(ms[k].timestamp)) >= 0 {
        if k < n {
          assert ms[k] == front[k];
          var g := GroupIndex(gs0, dayKey(front[k].timestamp));
          assert gs[g].key == gs0[g].key;
        } else if i >= 0 {
          assert gs[i].key == key;
        } else {
          assert gs[|gs0|].key == key;
        }
      }
    }
  }

  /** Every bucket is non-empty and holds exactly its day's messages, in list order. */
  lemma {:induction false} GroupBucketsAreDays(ms: seq<Message>, dayKey: int -> string)
    ensures forall j :: 0 <= j < |Group(ms, dayKey)| ==>
      Group(ms, dayKey)[j].messages != [] && Group(ms, dayKey)[j].messages == OnDay(ms, dayKey, Group(ms, dayKey)[j].key)
  {
    if |ms| > 0 {
      var n := |ms| - 1;
      var front := ms[..n];
      var m := ms[n];
      var key := dayKey(m.timestamp);
      GroupBucketsAreDays(front, dayKey);
      GroupKeysUnique(front, dayKey);
      GroupCoversEveryDay(front, dayKey);
      var gs0 := Group(front, dayKey);
      var gs := Group(ms, dayKey);
      var i := GroupIndex(gs0, key);
      if i < 0 {
        forall k | 0 <= k < |front| ensures dayKey(front[k].timestamp) != key {
          assert GroupIndex(gs0, dayKey(front[k].timestamp)) >= 0;
        }
        OnDayEmpty(front, dayKey, key);
      }
      forall j | 0 <= j < |gs| ensures gs[j].messages != [] && gs[j].messages == OnDay(ms, dayKey, gs[j].key) {
        if j < |gs0| && j != i {
          assert gs[j] == gs0[j];
          assert gs0[j].key != key;
        }
      }
    }
  }

  /** No message is lost or repeated: the bucket sizes add up to the list's. */
  lemma {:induction false} GroupKeepsCount(ms: seq<Message>, dayKey: int -> string)
    ensures Count(Group(ms, dayKey)) == |ms|
  {
    if |ms| > 0 {
      var n := |ms| - 1;
      var front := ms[..n];
      var key := dayKey(ms[n].timestamp);
      GroupKeepsCount(front, dayKey);
      var gs0 := Group(front, dayKey);
      var gs := Group(ms, dayKey);
      var i := GroupIndex(gs0, key);
      if i >= 0 {
        CountUpdate(gs0, i, DayGroup(key, gs0[i].messages + [ms[n]]));
      } else {
        assert gs[..|gs| - 1] == gs0;
      }
    }
  }

  /** The bucket keys, in bucket order. */
  function Keys(gs: seq<DayGroup>): (r: seq<string>)
    ensures |r| == |gs|
  {
    seq(|gs|, k requires 0 <= k < |gs| => gs[k].key)
  }

  /** Reference definition of the bucket order: every day of the list once, in
      order of its first message. */
  function Days(ms: seq<Message>, dayKey: int -> string): seq<string> {
    if |ms| == 0 then []
    else
      var front := Days(ms[..|ms| - 1], dayKey);
      var key := dayKey(ms[|ms| - 1].timestamp);
      if key in front then front else front + [key]
  }

  /** The buckets come in order of first appearance: a message of a day not
      seen before opens a bucket after all existing ones. */
  lemma {:induction false} GroupFollowsFirstAppearance(ms: seq<Message>, dayKey: int -> string)
    ensures Keys(Group(ms, dayKey)) == Days(ms, dayKey)
  {
    if |ms| > 0 {
      var n := |ms| - 1;
      var front := ms[..n];
      var key := dayKey(ms[n].timestamp);
      GroupFollowsFirstAppearance(front, dayKey);
      var gs0 := Group(front, dayKey);
      var gs := Group(ms, dayKey);
      var i := GroupIndex(gs0, key);
      if i >= 0 {
        assert Keys(gs0)[i] == key;
        assert Keys(gs) == Keys(gs0);
      } else {
        assert key !in Keys(gs0);
        assert Keys(gs) == Keys(gs0) + [key];
      }
    }
  }

  // ---------------------------------------------------------------------------
  // Headers of consecutive messages
  // ---------------------------------------------------------------------------

  /** `isConsecutive`: a previous message in the same day, by the same
      author, less than five minutes earlier. Such a message shows no avatar
      and no name. */
  function IsConsecutive(day: seq<Message>, i: int): (b: bool)
    requires 0 <= i < |day|
    ensures i == 0 ==> !b
  {
    i > 0 && day[i - 1].userId == day[i].userId && day[i].timestamp - day[i - 1].timestamp < ConsecutiveWindowMs
  }

  /** The message whose header a message is shown under: the nearest message
      at or before `i` that shows a header. Every message in between is
      consecutive, and all of them are by the author the header names. */
  function HeaderIndex(day: seq<Message>, i: int): (j: int)
    requires 0 <= i < |day|
    ensures 0 <= j <= i && !IsConsecutive(day, j)
    ensures forall k :: j < k <= i ==> IsConsecutive(day, k)
    ensures forall k :: j <= k <= i ==> day[k].userId == day[i].userId
    decreases i
  {
    if !IsConsecutive(day, i) then i else HeaderIndex(day, i - 1)
  }

  // ---------------------------------------------------------------------------
  // Initials
  // ---------------------------------------------------------------------------

  /** `w.charAt(0).toUpperCase()`: empty for an empty word. */
  function FirstUpper(w: string): (r: string)
    ensures |r| <= 1
    ensures w != "" ==> r == [Text.ToUpper(w[0])]
    ensures w == "" ==> r == ""
  {
    if w == "" then "" else [Text.ToUpper(w[0])]
  }

  /** `getUserInitials`: the upper-cased first characters of the first two
      space-separated words. */
  function Initials(username: string): (r: string)
    ensures |r| <= 2
    ensures username != "" && username[0] != ' ' ==> |r| >= 1 && r[0] == Text.ToUpper(username[0])
    ensures ' ' !in username ==> r == FirstUpper(username)
  {
    var words := Text.Split(username, ' ');
    SplitWithoutSpace(username);
    FirstUpper(words[0]) + (if |words| >= 2 then FirstUpper(words[1]) else "")
  }

  lemma SplitWithoutSpace(s: string)
    ensures ' ' !in s ==> Text.Split(s, ' ') == [s]
  {
    if ' ' !in s {
      Text.NoSeparatorSplit(s, ' ');
    }
  }

  /** For a name made of words, the initials are those of its first two words. */
  lemma InitialsOfWords(words: seq<string>)
    requires |words| >= 1
    requires forall k :: 0 <= k < |words| ==> ' ' !in words[k]
    ensures Initials(Text.Join(words, ' ')) == FirstUpper(words[0]) + (if |words| >= 2 then FirstUpper(words[1]) else "")
  {
    Text.SplitJoin(words, ' ');
  }
}

=== FILE: chat_service.dfy ===
/** The client-side reconciliation state machine of `ChatService` (lib/chat.ts).

The service state is one record: the visible message list, the ids the viewer
has hidden, and the typing table. Every realtime callback and every public
operation is a pure transition on that record. Backend requests (inserts,
updates, uploads, broadcasts) are not performed: an operation returns the list
of requests it would issue, in order, next to the new state. Query results and
upload outcomes are inputs.
 */
module ChatService {
  import opened Wrappers
  import opened Messages
  import Text
  import Typing

  const DefaultRoom: string := "general"
  const ClearChunkSize: nat := 100
  const ImagePrefix: string := "image/"
  const DefaultExtension: string := "png"
  const NotImageError: string := "Hanya gambar yang didukung."
  const StartAction: string := "start"
  const StopAction: string := "stop"

  /** `strays` are the expiry timers `dispose` left running after clearing the
      typing table: each still deletes its user's entry when it fires.
      `subscribed` tells whether the realtime channels are open. */
  datatype State = State(
    room: string,
    viewer: Option<string>,
    messages: seq<Message>,
    hiddenIds: set<string>,
    typing: Typing.Table,
    strays: Typing.Table,
    subscribed: bool)

  /** A backend request the service issues. */
  datatype Call =
    | InsertTextMessage(room: string, userId: string, username: string, content: string)
    | InsertImageMessage(room: string, userId: string, username: string, attachmentUrl: string)
    | MarkDeletedForAll(messageId: string)
    | InsertHides(userId: string, messageIds: seq<string>)
    | UploadImage(fileName: string)
    | BroadcastTyping(room: string, action: string, userId: string, name: Option<string>)

  /** The state after an operation and the requests it issued. */
  datatype Step = Step(state: State, calls: seq<Call>)

  /** What a backend query returned: its rows (`data` may be null) or an error. */
  type Fetch<T> = Result<Option<seq<T>>, string>

  datatype InitOutcome = Loaded(state: State) | InitFailed(state: State, error: string)

  datatype FileInfo = FileInfo(name: string, mimeType: string)

  datatype FileSend =
    | Rejected(error: string)
    | UploadFailed(calls: seq<Call>, error: string)
    | Sent(calls: seq<Call>)

  /** No message the viewer hid is on the list. */
  predicate HiddenNotShown(s: State) {
    forall k :: 0 <= k < |s.messages| ==> s.messages[k].id !in s.hiddenIds
  }

  predicate Inv(s: State) {
    HiddenNotShown(s) && Typing.UniqueKeys(s.typing)
  }

  /** The service as constructed, before `init`: nothing listed and no channel open. */
  function Fresh(): (s: State)
    ensures Inv(s) && s.messages == [] && s.hiddenIds == {} && s.typing == []
    ensures s.strays == [] && !s.subscribed
  {
    State(DefaultRoom, None, [], {}, [], [], false)
  }

  // ---------------------------------------------------------------------------
  // init
  // ---------------------------------------------------------------------------

  /** The ids named by the viewer's hide rows. */
  function HiddenIdsOf(hides: seq<DbHide>): (r: set<string>)
    ensures forall k :: 0 <= k < |hides| ==> Sid(hides[k].messageId) in r
    ensures forall id :: id in r ==> exists k :: 0 <= k < |hides| && Sid(hides[k].messageId) == id
  {
    set k | 0 <= k < |hides| :: Sid(hides[k].messageId)
  }

  /** `rows.map(mapDbToMessage)`. */
  function MapRows(rows: seq<DbMessage>): (r: seq<Message>)
    ensures |r| == |rows|
    ensures forall k :: 0 <= k < |rows| ==> r[k] == MapDbToMessage(rows[k])
  {
    if |rows| == 0 then [] else [MapDbToMessage(rows[0])] + MapRows(rows[1..])
  }

  /** `init` (backend path): both queries must succeed; the first error is
      thrown after viewer and room were already recorded. On success the list
      is the fetched rows, mapped and without the hidden ones, in fetched order,
      and the realtime channels are open. A failed load opens no channel. */
  function Init(s: State, viewer: string, room: string, rows: Fetch<DbMessage>, hides: Fetch<DbHide>): (r: InitOutcome)
    ensures r.state.viewer == Some(viewer) && r.state.room == room && r.state.typing == s.typing
    ensures r.state.strays == s.strays
    ensures rows.Err? ==> r == InitFailed(s.(viewer := Some(viewer), room := room), rows.error)
    ensures rows.Ok? && hides.Err? ==> r == InitFailed(s.(viewer := Some(viewer), room := room), hides.error)
    ensures rows.Ok? && hides.Ok? ==> (r.Loaded?
      && r.state.hiddenIds == HiddenIdsOf(hides.value.GetOr([]))
      && r.state.messages == Without(MapRows(rows.value.GetOr([])), r.state.hiddenIds)
      && HiddenNotShown(r.state)
      && r.state.subscribed)
  {
    var s1 := s.(viewer := Some(viewer), room := room);
    match rows
    case Err(e) => InitFailed(s1, e)
    case Ok(rowData) =>
      match hides
      case Err(e) => InitFailed(s1, e)
      case Ok(hideData) =>
        var hidden := HiddenIdsOf(hideData.GetOr([]));
        Loaded(s1.(hiddenIds := hidden, messages := Without(MapRows(rowData.GetOr([])), hidden), subscribed := true))
  }

  // ---------------------------------------------------------------------------
  // Realtime message feed
  // ---------------------------------------------------------------------------

  /** INSERT: the mapped row is appended at the end unless the viewer hid it.
      There is no duplicate check and no reordering by time. */
  function OnMessageInsert(s: State, row: DbMessage): (r: State)
    ensures r.hiddenIds == s.hiddenIds && r.typing == s.typing
    ensures Sid(row.id) in s.hiddenIds ==> r == s
    ensures Sid(row.id) !in s.hiddenIds ==>
      |r.messages| == |s.messages| + 1
      && r.messages[..|s.messages|] == s.messages
      && r.messages[|s.messages|] == MapDbToMessage(row)
  {
    var m := MapDbToMessage(row);
    if m.id in s.hiddenIds then s
    else s.(messages := s.messages + [m])
  }

  /** UPDATE: the first message with the row's id is replaced by the mapped
      row; the length never changes; nothing happens if the id is not listed. */
  function OnMessageUpdate(s: State, row: DbMessage): (r: State)
    ensures r.hiddenIds == s.hiddenIds && r.typing == s.typing
    ensures |r.messages| == |s.messages|
    ensures !HasId(s.messages, Sid(row.id)) ==> r == s
    ensures HasId(s.messages, Sid(row.id)) ==>
      exists i :: 0 <= i < |s.messages|
        && s.messages[i].id == Sid(row.id)
        && (forall k :: 0 <= k < i ==> s.messages[k].id != Sid(row.id))
        && r.messages == s.messages[i := MapDbToMessage(row)]
  {
    var m := MapDbToMessage(row);
    var i := FindIndex(s.messages, m.id);
    if i >= 0 then s.(messages := s.messages[i := m]) else s
  }

  /** DELETE: every message with the deleted row's id goes; the others stay in order. */
  function OnMessageDelete(s: State, key: DbKey): (r: State)
    ensures r.hiddenIds == s.hiddenIds && r.typing == s.typing
    ensures r.messages == Without(s.messages, {Sid(key)})
    ensures !HasId(r.messages, Sid(key))
    ensures forall k :: 0 <= k < |s.messages| && s.messages[k].id != Sid(key) ==> s.messages[k] in r.messages
    ensures forall k :: 0 <= k < |r.messages| ==> r.messages[k] in s.messages
  {
    WithoutKeeps(s.messages, {Sid(key)});
    s.(messages := Without(s.messages, {Sid(key)}))
  }

  // ---------------------------------------------------------------------------
  // Realtime hide feed
  // ---------------------------------------------------------------------------

  /** Whether a hide row belongs to the viewer of this service. */
  predicate ForViewer(s: State, hideRow: DbHide) {
    s.viewer == Some(hideRow.userId)
  }

  /** Hide INSERT: a row of the viewer hides its message (once); rows of other
      users change nothing. */
  function OnHideInsert(s: State, hideRow: DbHide): (r: State)
    ensures !ForViewer(s, hideRow) ==> r == s
    ensures ForViewer(s, hideRow) ==> r.hiddenIds == s.hiddenIds + {Sid(hideRow.messageId)}
    ensures ForViewer(s, hideRow) && Sid(hideRow.messageId) in s.hiddenIds ==> r == s
    ensures ForViewer(s, hideRow) && Sid(hideRow.messageId) !in s.hiddenIds ==>
      r.messages == Without(s.messages, {Sid(hideRow.messageId)})
    ensures ForViewer(s, hideRow) && HiddenNotShown(s) ==> !HasId(r.messages, Sid(hideRow.messageId))
    ensures forall k :: 0 <= k < |s.messages| && s.messages[k].id != Sid(hideRow.messageId) ==> s.messages[k] in r.messages
    ensures forall k :: 0 <= k < |r.messages| ==> r.messages[k] in s.messages
    ensures r.typing == s.typing
  {
    if ForViewer(s, hideRow) then
      var id := Sid(hideRow.messageId);
      if id in s.hiddenIds then s
      else
        WithoutKeeps(s.messages, {id});
        s.(hiddenIds := s.hiddenIds + {id}, messages := Without(s.messages, {id}))
    else s
  }

  /** Hide DELETE: a row of the viewer un-hides its id; the message is not
      brought back onto the list. */
  function OnHideDelete(s: State, hideRow: DbHide): (r: State)
    ensures r.messages == s.messages && r.typing == s.typing
    ensures !ForViewer(s, hideRow) ==> r == s
    ensures ForViewer(s, hideRow) ==> r.hiddenIds == s.hiddenIds - {Sid(hideRow.messageId)}
  {
    if ForViewer(s, hideRow) then s.(hiddenIds := s.hiddenIds - {Sid(hideRow.messageId)}) else s
  }

  // ---------------------------------------------------------------------------
  // Typing presence
  // ---------------------------------------------------------------------------

  /** Whether a timer `dispose` left running for `userId` is due by `now`. */
  predicate StrayDue(s: State, userId: string, now: int) {
    userId in Typing.DueUsers(s.strays, now)
  }

  /** The clock reached `now`: every typing timer due by then has fired. A
      timer of the table removes its own entry; a stray timer removes whatever
      entry its user has by then, whatever that entry's deadline. The timer of
      an entry removed that way is not cancelled: it becomes a stray itself. */
  function OnTypingTimers(s: State, now: int): (r: State)
    ensures r.messages == s.messages && r.hiddenIds == s.hiddenIds
    ensures r.viewer == s.viewer && r.subscribed == s.subscribed
    ensures forall k :: 0 <= k < |r.typing| ==> r.typing[k] in s.typing && now < r.typing[k].deadline
    ensures Typing.UniqueKeys(s.typing) ==> Typing.UniqueKeys(r.typing)
    ensures Typing.UniqueKeys(s.typing) ==> forall u :: (Typing.Get(r.typing, u).Some? <==>
      Typing.Get(s.typing, u).Some? && now < Typing.Get(s.typing, u).value.deadline && !StrayDue(s, u, now))
    ensures forall k :: 0 <= k < |r.strays| ==>
      (now < r.strays[k].deadline
       && (r.strays[k] in s.strays || (r.strays[k] in s.typing && StrayDue(s, r.strays[k].userId, now))))
    ensures forall k :: 0 <= k < |s.strays| && now < s.strays[k].deadline ==> s.strays[k] in r.strays
    ensures forall k :: 0 <= k < |s.typing| && now < s.typing[k].deadline && StrayDue(s, s.typing[k].userId, now) ==>
      s.typing[k] in r.strays
  {
    var fired := Typing.DueUsers(s.strays, now);
    Typing.ExpireThenDrop(s.typing, fired, now);
    s.(typing := Typing.DropUsers(Typing.Expire(s.typing, now), fired), strays := Typing.FireStrays(s.strays, s.typing, now))
  }

  /** A typing broadcast from `userId` received at `now`, after every timer
      due by then has fired. It is ignored when the id is empty or is the
      viewer's own; "start" (re-)arms that peer's entry, anything else removes
      it. A peer without a live entry is appended at the end of the table, as
      `Map.set` does for a new key. */
  function OnTypingBroadcast(s: State, action: string, userId: string, username: string, now: int): (r: State)
    ensures r.messages == s.messages && r.hiddenIds == s.hiddenIds
    ensures userId == "" || s.viewer == Some(userId) ==> r == OnTypingTimers(s, now)
    ensures userId != "" && s.viewer != Some(userId) && action == StartAction ==>
      Typing.Get(r.typing, userId) == Some(Typing.Entry(userId, username, now + Typing.TypingTimeoutMs))
    ensures userId != "" && s.viewer != Some(userId) && action != StartAction ==>
      Typing.Get(r.typing, userId) == None
    ensures Typing.UniqueKeys(s.typing) ==> Typing.UniqueKeys(r.typing)
    ensures Typing.UniqueKeys(s.typing) ==> forall u :: u != userId ==>
      Typing.Get(r.typing, u) == Typing.Get(OnTypingTimers(s, now).typing, u)
    ensures (Typing.UniqueKeys(s.typing) && userId != "" && s.viewer != Some(userId) && action == StartAction
      && (Typing.Get(s.typing, userId).None? || Typing.Get(s.typing, userId).value.deadline <= now || StrayDue(s, userId, now))) ==>
      r.typing == OnTypingTimers(s, now).typing + [Typing.Entry(userId, username, now + Typing.TypingTimeoutMs)]
  {
    var s1 := OnTypingTimers(s, now);
    if userId == "" || s.viewer == Some(userId) then s1
    else if action == StartAction then s1.(typing := Typing.Apply(s1.typing, userId, username, now))
    else s1.(typing := Typing.Clear(s1.typing, userId))
  }

  /** `startTyping` at `now`, after the timers due by then: own entry armed
      locally, then a "start" broadcast. */
  function StartTyping(s: State, userId: string, username: string, now: int): (r: Step)
    ensures r.calls == [BroadcastTyping(s.room, StartAction, userId, Some(username))]
    ensures r.state.messages == s.messages && r.state.hiddenIds == s.hiddenIds
    ensures Typing.Get(r.state.typing, userId) == Some(Typing.Entry(userId, username, now + Typing.TypingTimeoutMs))
    ensures Typing.UniqueKeys(s.typing) ==> Typing.UniqueKeys(r.state.typing)
    ensures Typing.UniqueKeys(s.typing) ==> forall u :: u != userId ==>
      Typing.Get(r.state.typing, u) == Typing.Get(OnTypingTimers(s, now).typing, u)
  {
    var s1 := OnTypingTimers(s, now);
    Step(s1.(typing := Typing.Apply(s1.typing, userId, username, now)),
         [BroadcastTyping(s.room, StartAction, userId, Some(username))])
  }

  /** `stopTyping`: own entry cleared locally, then a "stop" broadcast (no name). */
  function StopTyping(s: State, userId: string): (r: Step)
    ensures r.calls == [BroadcastTyping(s.room, StopAction, userId, None)]
    ensures r.state.messages == s.messages && r.state.hiddenIds == s.hiddenIds
    ensures Typing.Get(r.state.typing, userId) == None
  {
    Step(s.(typing := Typing.Clear(s.typing, userId)), [BroadcastTyping(s.room, StopAction, userId, None)])
  }

  /** `getTypingList`: one user per table entry, in table order. */
  function TypingList(s: State): (r: seq<Typing.TypingUser>)
    ensures |r| == |s.typing|
    ensures forall k :: 0 <= k < |r| ==> r[k].userId == s.typing[k].userId && r[k].username != ""
  {
    Typing.List(s.typing)
  }

  /** `dispose`: the channels are closed and the typing table is cleared. The
      expiry timers of the cleared entries are not cancelled: they keep
      running as strays, and each will still delete its user's entry. */
  function Dispose(s: State): (r: State)
    ensures r.typing == [] && TypingList(r) == [] && !r.subscribed
    ensures forall k :: 0 <= k < |s.typing| ==> s.typing[k] in r.strays
    ensures forall k :: 0 <= k < |s.strays| ==> s.strays[k] in r.strays
    ensures forall k :: 0 <= k < |r.strays| ==> r.strays[k] in s.strays || r.strays[k] in s.typing
    ensures r.messages == s.messages && r.hiddenIds == s.hiddenIds && r.viewer == s.viewer
  {
    s.(typing := [], strays := s.strays + s.typing, subscribed := false)
  }

  /** `dispose` as a clean-up on unmount is meant to work: the table is
      cleared together with its timers, so no stray is left behind. */
  function DisposeCancellingTimers(s: State): (r: State)
    ensures r.typing == [] && TypingList(r) == [] && !r.subscribed
    ensures r.strays == s.strays
    ensures r.messages == s.messages && r.hiddenIds == s.hiddenIds && r.viewer == s.viewer
  {
    s.(typing := [], subscribed := false)
  }

  // ---------------------------------------------------------------------------
  // Sending
  // ---------------------------------------------------------------------------

  /** `sendMessage`: blank content returns before any request. Otherwise a text
      row is inserted (the list itself waits for the realtime INSERT) and the
      sender's typing is stopped. */
  function SendMessage(s: State, userId: string, username: string, content: string): (r: Step)
    ensures Text.IsBlank(content) ==> r == Step(s, [])
    ensures !Text.IsBlank(content) ==>
      && r.calls == [InsertTextMessage(s.room, userId, username, content), BroadcastTyping(s.room, StopAction, userId, None)]
      && r.state.messages == s.messages && r.state.hiddenIds == s.hiddenIds
      && Typing.Get(r.state.typing, userId) == None
  {
    if Text.IsBlank(content) then Step(s, [])
    else
      var stop := StopTyping(s, userId);
      Step(stop.state, [InsertTextMessage(s.room, userId, username, content)] + stop.calls)
  }

  /** `file.name.split('.').pop() || 'png'`: the text after the last dot, or
      the whole name when there is no dot, with "png" when that is empty. */
  function FileExtension(name: string): (ext: string)
    ensures ext != "" && '.' !in ext
    ensures name == "" || name[|name| - 1] == '.' ==> ext == DefaultExtension
    ensures name != "" && name[|name| - 1] != '.' ==>
      && |ext| <= |name| && name[|name| - |ext|..] == ext
      && (|ext| == |name| || name[|name| - |ext| - 1] == '.')
  {
    var last := Text.LastPiece(name, '.');
    if last == "" then DefaultExtension
    else
      assert last[|last| - 1] == name[|name| - 1];
      last
  }

  /** `sendFileMessage`: a missing file or a type outside "image/" is rejected
      before any request. Otherwise the upload under
      `<stamp>.<extension>` comes first, and only a successful upload is
      followed by the insert of an image row carrying the public URL.
      `stamp` stands for the time-and-random part of the generated name, and
      `upload` for the outcome of the upload followed by the public-URL lookup. */
  function SendFileMessage(s: State, userId: string, username: string, file: Option<FileInfo>,
                           stamp: string, upload: Result<string, string>): (r: FileSend)
    ensures (file.None? || !Text.StartsWith(file.value.mimeType, ImagePrefix)) <==> r == Rejected(NotImageError)
    ensures r.UploadFailed? <==> !r.Rejected? && upload.Err?
    ensures r.UploadFailed? ==> r.calls == [UploadImage(stamp + "." + FileExtension(file.value.name))] && r.error == upload.error
    ensures r.Sent? ==> r.calls == [UploadImage(stamp + "." + FileExtension(file.value.name)),
                                    InsertImageMessage(s.room, userId, username, upload.value)]
  {
    if file.None? || !Text.StartsWith(file.value.mimeType, ImagePrefix) then Rejected(NotImageError)
    else
      var up := UploadImage(stamp + "." + FileExtension(file.value.name));
      match upload
      case Err(e) => UploadFailed([up], e)
      case Ok(url) => Sent([up, InsertImageMessage(s.room, userId, username, url)])
  }

  // ---------------------------------------------------------------------------
  // Deleting and hiding
  // ---------------------------------------------------------------------------

  /** `deleteMessage`: an empty id returns before any request. For everyone:
      only the tombstone update is requested, the list waits for the realtime
      UPDATE. For the caller only: a hideRow row is inserted and the id is hidden
      and taken off the list at once. */
  function DeleteMessage(s: State, messageId: string, userId: string, forEveryone: bool): (r: Step)
    ensures messageId == "" ==> r == Step(s, [])
    ensures messageId != "" && forEveryone ==> r == Step(s, [MarkDeletedForAll(messageId)])
    ensures messageId != "" && !forEveryone ==>
      && r.calls == [InsertHides(userId, [messageId])]
      && r.state.hiddenIds == s.hiddenIds + {messageId}
      && r.state.messages == Without(s.messages, {messageId})
      && !HasId(r.state.messages, messageId)
      && (forall k :: 0 <= k < |s.messages| && s.messages[k].id != messageId ==> s.messages[k] in r.state.messages)
      && (forall k :: 0 <= k < |r.state.messages| ==> r.state.messages[k] in s.messages)
      && r.state.typing == s.typing
  {
    if messageId == "" then Step(s, [])
    else if forEveryone then Step(s, [MarkDeletedForAll(messageId)])
    else
      WithoutKeeps(s.messages, {messageId});
      Step(s.(hiddenIds := s.hiddenIds + {messageId}, messages := Without(s.messages, {messageId})),
           [InsertHides(userId, [messageId])])
  }

  /** The ids of the listed messages the viewer has not hidden, in list order. */
  function VisibleIds(s: State): (r: seq<string>)
    ensures forall k :: 0 <= k < |r| ==> r[k] !in s.hiddenIds
    ensures forall k :: 0 <= k < |s.messages| && s.messages[k].id !in s.hiddenIds ==> s.messages[k].id in r
    ensures HiddenNotShown(s) ==> r == Ids(s.messages)
  {
    VisibleIdsOf(s.messages, s.hiddenIds)
  }

  function VisibleIdsOf(ms: seq<Message>, hidden: set<string>): (r: seq<string>)
    ensures forall k :: 0 <= k < |r| ==> r[k] !in hidden
    ensures forall k :: 0 <= k < |ms| && ms[k].id !in hidden ==> ms[k].id in r
    ensures (forall k :: 0 <= k < |ms| ==> ms[k].id !in hidden) ==> r == Ids(ms)
  {
    if |ms| == 0 then []
    else
      var front := VisibleIdsOf(ms[..|ms| - 1], hidden);
      var last := ms[|ms| - 1];
      assert forall k :: 0 <= k < |ms| - 1 ==> ms[k] == ms[..|ms| - 1][k];
      if last.id in hidden then front else front + [last.id]
  }

  /** The pieces of a chunked list, concatenated back together. */
  function Flatten(chunks: seq<seq<string>>): seq<string> {
    if |chunks| == 0 then [] else chunks[0] + Flatten(chunks[1..])
  }

  lemma {:induction false} FlattenSnoc(chunks: seq<seq<string>>, c: seq<string>)
    ensures Flatten(chunks + [c]) == Flatten(chunks) + c
  {
    if |chunks| > 0 {
      FlattenSnoc(chunks[1..], c);
      assert (chunks + [c])[1..] == chunks[1..] + [c];
    } else {
      assert chunks + [c] == [c];
    }
  }

  /** `ids` cut into consecutive pieces of `size`; only the last may be shorter. */
  function Chunks(ids: seq<string>, size: nat): (r: seq<seq<string>>)
    requires size > 0
    ensures Flatten(r) == ids
    ensures forall k :: 0 <= k < |r| ==> 0 < |r[k]| <= size
    ensures forall k :: 0 <= k < |r| - 1 ==> |r[k]| == size
    decreases |ids|
  {
    if |ids| == 0 then []
    else if |ids| <= size then
      assert ids + [] == ids;
      [ids]
    else
      var rest := Chunks(ids[size..], size);
      assert ([ids[..size]] + rest)[1..] == rest;
      assert ids[..size] + ids[size..] == ids;
      [ids[..size]] + rest
  }

  function AsSet(xs: seq<string>): set<string> {
    set x | x in xs
  }

  /** The chunking loop of `clearAllMessages`: `ids.slice(i, i + size)` for
      i = 0, size, 2*size, ... while i is inside the list. The index here
      stops at the end of the list where the source's overshoots it; both
      leave the loop after the same chunks. */
  method ChunkIds(ids: seq<string>) returns (chunks: seq<seq<string>>)
    ensures chunks == Chunks(ids, ClearChunkSize)
  {
    chunks := [];
    var i := 0;
    while i < |ids|
      invariant 0 <= i <= |ids|
      invariant chunks + Chunks(ids[i..], ClearChunkSize) == Chunks(ids, ClearChunkSize)
      decreases |ids| - i
    {
      var end := Min(i + ClearChunkSize, |ids|);
      ChunksFrom(ids, i, ClearChunkSize);
      AppendChunk(chunks, ids[i..end], Chunks(ids[end..], ClearChunkSize));
      chunks := chunks + [ids[i..end]];
      i := end;
    }
    assert ids[i..] == [];
  }

  function Min(a: int, b: int): int {
    if a < b then a else b
  }

  /** One step of the chunking loop: the chunks from position `i` on are the
      slice `[i, i + size)`, clamped to the list, followed by the chunks after it. */
  lemma ChunksFrom(ids: seq<string>, i: nat, size: nat)
    requires size > 0 && i < |ids|
    ensures Chunks(ids[i..], size) == [ids[i..Min(i + size, |ids|)]] + Chunks(ids[Min(i + size, |ids|)..], size)
  {
    var tail := ids[i..];
    var end := Min(i + size, |ids|);
    if |tail| > size {
      assert tail[size..] == ids[end..];
      assert tail[..size] == ids[i..end];
    } else {
      assert tail == ids[i..end];
      assert ids[end..] == [];
    }
  }

  /** Moving the next chunk from the pending list to the finished one keeps
      their concatenation. */
  lemma AppendChunk(done: seq<seq<string>>, next: seq<string>, rest: seq<seq<string>>)
    ensures (done + [next]) + rest == done + ([next] + rest)
  {
  }

  /** The insert loop of `clearAllMessages`: one hide insert per chunk, in
      order, each chunk's ids added to the hidden set after its insert. */
  method HideChunks(hidden0: set<string>, chunks: seq<seq<string>>, userId: string)
    returns (hidden: set<string>, calls: seq<Call>)
    ensures hidden == hidden0 + AsSet(Flatten(chunks))
    ensures |calls| == |chunks|
    ensures forall k :: 0 <= k < |chunks| ==> calls[k] == InsertHides(userId, chunks[k])
  {
    hidden := hidden0;
    calls := [];
    var j := 0;
    while j < |chunks|
      invariant 0 <= j <= |chunks|
      invariant hidden == hidden0 + AsSet(Flatten(chunks[..j]))
      invariant |calls| == j
      invariant forall k :: 0 <= k < j ==> calls[k] == InsertHides(userId, chunks[k])
    {
      calls := calls + [InsertHides(userId, chunks[j])];
      hidden := hidden + AsSet(chunks[j]);
      FlattenSnoc(chunks[..j], chunks[j]);
      assert chunks[..j + 1] == chunks[..j] + [chunks[j]];
      j := j + 1;
    }
    assert chunks[..j] == chunks;
  }

  /** `clearAllMessages`: nothing happens when no listed message is visible.
      Otherwise the visible ids are inserted as hide rows in chunks of 100, in
      order, every one of them becomes hidden, and the list ends up empty. */
  method ClearAllMessages(s: State, userId: string) returns (r: Step)
    ensures VisibleIds(s) == [] ==> r == Step(s, [])
    ensures VisibleIds(r.state) == []
    ensures HiddenNotShown(s) ==> r.state.messages == []
    ensures Inv(s) ==> Inv(r.state)
    ensures VisibleIds(s) != [] ==>
      && r.state.messages == []
      && r.state.hiddenIds == s.hiddenIds + AsSet(VisibleIds(s))
      && r.state.typing == s.typing && r.state.viewer == s.viewer && r.state.room == s.room
      && |r.calls| == |Chunks(VisibleIds(s), ClearChunkSize)|
      && forall k :: 0 <= k < |r.calls| ==> r.calls[k] == InsertHides(userId, Chunks(VisibleIds(s), ClearChunkSize)[k])
  {
    var ids := VisibleIds(s);
    if |ids| == 0 {
      return Step(s, []);
    }
    var chunks := ChunkIds(ids);
    var hidden, calls := HideChunks(s.hiddenIds, chunks, userId);
    var remaining := Without(s.messages, hidden);
    assert Flatten(chunks) == ids;
    WithoutEverything(s.messages, hidden);
    r := Step(s.(hiddenIds := hidden, messages := remaining), calls);
  }
}

=== FILE: chat_service_proofs.dfy ===
/** Properties of the chat service transitions: the hidden-id invariant across
every event, idempotence of hiding, and the two end-to-end behaviours the
service promises (a tombstone update replaces the message shown, and a typing
peer stays listed until three seconds after its last "start").
 */
module ChatServiceProofs {
  import opened Wrappers
  import opened Messages
  import opened ChatService
  import Typing

  /** Everything that can happen to the service: `init` (again), the
      realtime deliveries, the clock, the public operations and `dispose`. */
  datatype Event =
    | Initialised(viewer: string, room: string, rows: Fetch<DbMessage>, hides: Fetch<DbHide>)
    | MessageInserted(row: DbMessage)
    | MessageUpdated(row: DbMessage)
    | MessageDeleted(key: DbKey)
    | HideInserted(hideRow: DbHide)
    | HideDeleted(hideRow: DbHide)
    | TypingReceived(action: string, userId: string, name: string, now: int)
    | ClockAdvanced(now: int)
    | TypingStarted(userId: string, name: string, now: int)
    | TypingStopped(userId: string)
    | MessageSent(userId: string, name: string, content: string)
    | DeleteRequested(messageId: string, userId: string, forEveryone: bool)
    | Disposed

  /** The events delivered by the realtime channels, which only arrive while
      they are open: before `init` and after `dispose` nothing is delivered. */
  predicate Realtime(e: Event) {
    e.MessageInserted? || e.MessageUpdated? || e.MessageDeleted? || e.HideInserted? || e.HideDeleted? || e.TypingReceived?
  }

  /** One event. Only `init` opens the channels and only `dispose` closes
      them; while they are closed a realtime event changes nothing. */
  function Next(s: State, e: Event): (r: State)
    ensures Realtime(e) && !s.subscribed ==> r == s
    ensures !e.Initialised? && !e.Disposed? ==> r.subscribed == s.subscribed
    ensures e.Initialised? ==> (r.subscribed <==> s.subscribed || (e.rows.Ok? && e.hides.Ok?))
    ensures e.Disposed? ==> !r.subscribed
  {
    if Realtime(e) && !s.subscribed then s
    else match e
    case Initialised(viewer, room, rows, hides) => Init(s, viewer, room, rows, hides).state
    case MessageInserted(row) => OnMessageInsert(s, row)
    case MessageUpdated(row) => OnMessageUpdate(s, row)
    case MessageDeleted(key) => OnMessageDelete(s, key)
    case HideInserted(h) => OnHideInsert(s, h)
    case HideDeleted(h) => OnHideDelete(s, h)
    case TypingReceived(action, userId, name, now) => OnTypingBroadcast(s, action, userId, name, now)
    case ClockAdvanced(now) => OnTypingTimers(s, now)
    case TypingStarted(userId, name, now) => StartTyping(s, userId, name, now).state
    case TypingStopped(userId) => StopTyping(s, userId).state
    case MessageSent(userId, name, content) => SendMessage(s, userId, name, content).state
    case DeleteRequested(id, userId, forEveryone) => DeleteMessage(s, id, userId, forEveryone).state
    case Disposed => Dispose(s)
  }

  /** The events of `es`, in order. */
  function Run(s: State, es: seq<Event>): State
    decreases |es|
  {
    if |es| == 0 then s else Run(Next(s, es[0]), es[1..])
  }

  /** Before `init` and after `dispose`, any number of realtime deliveries
      leave the service exactly as it was. */
  lemma {:induction false} ClosedIgnoresRealtime(s: State, es: seq<Event>)
    requires !s.subscribed
    requires forall k :: 0 <= k < |es| ==> Realtime(es[k])
    ensures Run(s, es) == s
    decreases |es|
  {
    if |es| > 0 {
      assert Next(s, es[0]) == s;
      ClosedIgnoresRealtime(s, es[1..]);
    }
  }

  /** A successful `init` leaves no hidden message on the list. */
  lemma InitEstablishesInv(s: State, viewer: string, room: string, rows: Fetch<DbMessage>, hides: Fetch<DbHide>)
    requires Typing.UniqueKeys(s.typing)
    ensures Init(s, viewer, room, rows, hides).Loaded? ==> Inv(Init(s, viewer, room, rows, hides).state)
  {
  }

  /** Every event keeps hidden messages off the list and typing keys unique. */
  lemma NextPreservesInv(s: State, e: Event)
    requires Inv(s)
    ensures Inv(Next(s, e))
  {
    if !(Realtime(e) && !s.subscribed) && e.MessageUpdated? {
      UpdatePreservesInv(s, e.row);
    }
  }

  /** An UPDATE replaces a listed message with one of the same id, which was
      not hidden. */
  lemma UpdatePreservesInv(s: State, row: DbMessage)
    requires Inv(s)
    ensures Inv(OnMessageUpdate(s, row))
  {
    var r := OnMessageUpdate(s, row);
    if HasId(s.messages, Sid(row.id)) {
      var i :| 0 <= i < |s.messages| && s.messages[i].id == Sid(row.id)
        && r.messages == s.messages[i := MapDbToMessage(row)];
      assert Sid(row.id) !in s.hiddenIds;
    }
  }

  /** The invariant holds after any sequence of events. */
  lemma {:induction false} RunPreservesInv(s: State, es: seq<Event>)
    requires Inv(s)
    ensures Inv(Run(s, es))
    decreases |es|
  {
    if |es| > 0 {
      NextPreservesInv(s, es[0]);
      RunPreservesInv(Next(s, es[0]), es[1..]);
    }
  }

  /** Delete-for-me twice is delete-for-me once. */
  lemma DeleteForMeIdempotent(s: State, messageId: string, userId: string)
    ensures var once := DeleteMessage(s, messageId, userId, false).state;
      DeleteMessage(once, messageId, userId, false).state == once
  {
    if messageId != "" {
      WithoutIdempotent(s.messages, {messageId});
    }
  }

  /** A repeated hide INSERT for the viewer changes nothing more. */
  lemma HideInsertIdempotent(s: State, h: DbHide)
    ensures OnHideInsert(OnHideInsert(s, h), h) == OnHideInsert(s, h)
  {
  }

  /** Hiding through the realtime feed and hiding through delete-for-me reach
      the same state when the viewer's own hide row comes back. */
  /** The hide row carries the id as a number when it reads as one, and as
      the string otherwise. */
  lemma DeleteForMeThenEcho(s: State, messageId: string, viewer: string, rowId: string, key: DbKey)
    requires s.viewer == Some(viewer) && messageId != ""
    requires key == StrKey(messageId) || (key.NumKey? && messageId == Text.IntToString(key.n))
    ensures var local := DeleteMessage(s, messageId, viewer, false).state;
      OnHideInsert(local, DbHide(rowId, viewer, key)) == local
  {
    if key.NumKey? {
      SidNumberAndStringAgree(key.n);
    }
  }

  /** A realtime DELETE keeps the other messages in their order: on a list
      made of two parts, each part is filtered on its own. */
  lemma DeleteKeepsOrder(s: State, key: DbKey, a: seq<Message>, b: seq<Message>)
    requires s.messages == a + b
    ensures OnMessageDelete(s, key).messages == Without(a, {Sid(key)}) + Without(b, {Sid(key)})
  {
    WithoutAppend(a, b, {Sid(key)});
  }

  /** Hiding a message keeps the others in their order. */
  lemma HideKeepsOrder(s: State, hideRow: DbHide, a: seq<Message>, b: seq<Message>)
    requires s.messages == a + b && ForViewer(s, hideRow) && Sid(hideRow.messageId) !in s.hiddenIds
    ensures OnHideInsert(s, hideRow).messages
      == Without(a, {Sid(hideRow.messageId)}) + Without(b, {Sid(hideRow.messageId)})
  {
    WithoutAppend(a, b, {Sid(hideRow.messageId)});
  }

  /** Deleting a message for oneself keeps the others in their order. */
  lemma DeleteForMeKeepsOrder(s: State, messageId: string, userId: string, a: seq<Message>, b: seq<Message>)
    requires s.messages == a + b && messageId != ""
    ensures DeleteMessage(s, messageId, userId, false).state.messages
      == Without(a, {messageId}) + Without(b, {messageId})
  {
    WithoutAppend(a, b, {messageId});
  }

  /** Firing the due timers keeps the surviving typing entries in table order:
      on a table made of two parts, each part loses its entries on its own. */
  lemma TimersKeepOrder(s: State, now: int, a: Typing.Table, b: Typing.Table)
    requires s.typing == a + b
    ensures var fired := Typing.DueUsers(s.strays, now);
      OnTypingTimers(s, now).typing
        == Typing.DropUsers(Typing.Expire(a, now), fired) + Typing.DropUsers(Typing.Expire(b, now), fired)
  {
    var e := Typing.Entry("", "", now);
    Typing.ExpireInOrder(a, b, e, now);
    Typing.DropUsersInOrder(Typing.Expire(a, now), Typing.Expire(b, now), e, Typing.DueUsers(s.strays, now));
  }

  /** The deletion-for-everyone round trip: a message inserted through the feed
      and then updated with the tombstone flag is shown, at the same position,
      as the deletion placeholder with no attachment and the same id. */
  lemma {:induction false} InsertThenTombstone(s: State, row: DbMessage)
    requires Sid(row.id) !in s.hiddenIds && !HasId(s.messages, Sid(row.id))
    ensures var s1 := OnMessageInsert(s, row);
      var s2 := OnMessageUpdate(s1, MarkedDeleted(row));
      && |s2.messages| == |s.messages| + 1
      && s2.messages[..|s.messages|] == s.messages
      && s2.messages[|s.messages|].id == Sid(row.id)
      && s2.messages[|s.messages|].content == DeletedPlaceholder
      && s2.messages[|s.messages|].fileUrl == None
      && s2.messages[|s.messages|].fileType == None
  {
    var s1 := OnMessageInsert(s, row);
    var t := MarkedDeleted(row);
    assert Sid(t.id) == Sid(row.id);
    assert FindIndex(s1.messages, Sid(row.id)) == |s.messages|;
  }

  /** Typing liveness: a peer that sent "start" at t0 and again at t1 (within
      the window) is listed at t1 and stays listed exactly until three seconds
      after the second "start". */
  lemma TypingListedUntilLastStartExpires(s: State, peer: string, name: string, t0: int, t1: int, now: int)
    requires Typing.UniqueKeys(s.typing) && !Typing.HasKey(s.strays, peer)
    requires peer != "" && s.viewer != Some(peer)
    requires t0 <= t1 < t0 + Typing.TypingTimeoutMs
    ensures var s1 := OnTypingBroadcast(s, StartAction, peer, name, t0);
      var s2 := OnTypingTimers(s1, t1);
      var s3 := OnTypingBroadcast(s2, StartAction, peer, name, t1);
      var s4 := OnTypingTimers(s3, now);
      && Typing.Get(s2.typing, peer).Some?
      && (Typing.Get(s4.typing, peer).Some? <==> now < t1 + Typing.TypingTimeoutMs)
  {
    var s1 := OnTypingBroadcast(s, StartAction, peer, name, t0);
    NoStrayStaysNone(s, peer, t0);
    var s2 := OnTypingTimers(s1, t1);
    NoStrayStaysNone(s1, peer, t1);
    var s3 := OnTypingBroadcast(s2, StartAction, peer, name, t1);
    NoStrayStaysNone(s2, peer, t1);
    assert !StrayDue(s1, peer, t1) && !StrayDue(s3, peer, now);
  }

  /** A "stop" (or any other action) from a peer removes it at once, whatever
      its deadline. */
  lemma StopRemovesPeer(s: State, peer: string, action: string, now: int)
    requires peer != "" && s.viewer != Some(peer) && action != StartAction
    ensures Typing.Get(OnTypingBroadcast(s, action, peer, "", now).typing, peer) == None
  {
  }

  /** A peer whose entry is still live when its "start" arrives keeps its
      place in the table: the order of the users is unchanged. */
  lemma RestartInTimeKeepsOrder(s: State, peer: string, name: string, now: int)
    requires Typing.UniqueKeys(s.typing) && peer != "" && s.viewer != Some(peer)
    requires Typing.Get(s.typing, peer).Some? && now < Typing.Get(s.typing, peer).value.deadline && !StrayDue(s, peer, now)
    ensures var before := OnTypingTimers(s, now).typing;
      var after := OnTypingBroadcast(s, StartAction, peer, name, now).typing;
      |after| == |before| && forall k :: 0 <= k < |after| ==> after[k].userId == before[k].userId
  {
    assert Typing.HasKey(OnTypingTimers(s, now).typing, peer);
  }

  /** A peer that starts again after its deadline comes last: its timer has
      already deleted it, so the start adds a new entry at the end. With
      u1 due at 3000 and u2 at 4000, for instance, a start from u1 at 3500
      lists u2 first. */
  lemma RestartAfterDeadlineMovesToEnd(s: State, a: Typing.Entry, b: Typing.Entry, now: int)
    requires s.typing == [a, b] && a.userId != b.userId && s.strays == []
    requires a.userId != "" && s.viewer != Some(a.userId) && a.username != "" && b.username != ""
    requires a.deadline <= now < b.deadline
    ensures TypingList(OnTypingBroadcast(s, StartAction, a.userId, a.username, now))
      == [Typing.TypingUser(b.userId, b.username), Typing.TypingUser(a.userId, a.username)]
  {
    OnlyLaterPeerLeft(s, a, b, now);
    ExpiredStartAppends(s, a.userId, a.username, now);
    ListsTwoPeers(OnTypingBroadcast(s, StartAction, a.userId, a.username, now),
                  b, Typing.Entry(a.userId, a.username, now + Typing.TypingTimeoutMs));
  }

  /** At `now` the timer of `a` has fired and that of `b` has not. */
  lemma OnlyLaterPeerLeft(s: State, a: Typing.Entry, b: Typing.Entry, now: int)
    requires s.typing == [a, b] && a.userId != b.userId && s.strays == []
    requires a.deadline <= now < b.deadline
    ensures Typing.UniqueKeys(s.typing) && Typing.Get(s.typing, a.userId) == Some(a)
    ensures OnTypingTimers(s, now).typing == [b]
  {
    var expired := Typing.Expire(s.typing, now);
    assert s.typing[1] == b;
    assert Typing.UniqueKeys(s.typing);
    Typing.GetIs(s.typing, 0);
    OnlyEntry(expired, b);
    var t := OnTypingTimers(s, now).typing;
    assert Typing.DueUsers(s.strays, now) == {};
    OnlyEntry(t, b);
  }

  /** A start from a peer whose entry has expired appends it to the table the
      timers left. */
  lemma ExpiredStartAppends(s: State, userId: string, username: string, now: int)
    requires Typing.UniqueKeys(s.typing) && userId != "" && s.viewer != Some(userId)
    requires Typing.Get(s.typing, userId).Some? && Typing.Get(s.typing, userId).value.deadline <= now
    ensures OnTypingBroadcast(s, StartAction, userId, username, now).typing
      == OnTypingTimers(s, now).typing + [Typing.Entry(userId, username, now + Typing.TypingTimeoutMs)]
  {
  }

  /** The typing list of a table of two named peers names both, in order. */
  lemma ListsTwoPeers(s: State, a: Typing.Entry, b: Typing.Entry)
    requires s.typing == [a] + [b] && a.username != "" && b.username != ""
    ensures TypingList(s) == [Typing.TypingUser(a.userId, a.username), Typing.TypingUser(b.userId, b.username)]
  {
  }

  /** A table with unique keys whose every entry is `e`, and which holds `e`,
      is `[e]`. */
  lemma OnlyEntry(t: Typing.Table, e: Typing.Entry)
    requires Typing.UniqueKeys(t) && e in t
    requires forall k :: 0 <= k < |t| ==> t[k] == e
    ensures t == [e]
  {
    assert |t| < 2 || t[0].userId != t[1].userId;
  }

  /** Firing timers gives no stray timer to a user who had none: only a due
      stray of the same user turns a live entry's timer into a stray. */
  lemma NoStrayStaysNone(s: State, u: string, now: int)
    requires !Typing.HasKey(s.strays, u)
    ensures !Typing.HasKey(OnTypingTimers(s, now).strays, u)
  {
    assert !StrayDue(s, u, now);
  }

  /** `dispose` leaves the expiry timers running. A peer that typed before
      the service was disposed and starts again once `init` has run again is
      deleted by the old timer, three seconds after the earlier start,
      although its last start is more recent. */
  lemma DisposeThenRestartDropsEarly(s: State, peer: string, name: string, viewer: string, room: string,
                                     rows: Fetch<DbMessage>, hides: Fetch<DbHide>, t0: int, t1: int)
    requires Typing.UniqueKeys(s.typing) && peer != "" && s.viewer != Some(peer) && viewer != peer
    requires rows.Ok? && hides.Ok?
    requires t0 < t1 < t0 + Typing.TypingTimeoutMs
    ensures var s1 := OnTypingBroadcast(s, StartAction, peer, name, t0);
      var s2 := Dispose(s1);
      var s3 := Init(s2, viewer, room, rows, hides).state;
      var s4 := OnTypingBroadcast(s3, StartAction, peer, name, t1);
      var s5 := OnTypingTimers(s4, t0 + Typing.TypingTimeoutMs);
      && Typing.Get(s4.typing, peer).Some?
      && Typing.Get(s5.typing, peer) == None
      && t0 + Typing.TypingTimeoutMs < t1 + Typing.TypingTimeoutMs
  {
    RestartAfterDispose(s, peer, name, viewer, room, rows, hides, t0, t1);
    var s4 := OnTypingBroadcast(Init(Dispose(OnTypingBroadcast(s, StartAction, peer, name, t0)), viewer, room, rows, hides).state,
                                StartAction, peer, name, t1);
    assert StrayDue(s4, peer, t0 + Typing.TypingTimeoutMs);
  }

  /** A stray timer that deletes a re-armed entry leaves that entry's own timer
      running, so the early deletion repeats: after a start at t1 and another
      at t2, the peer is deleted three seconds after t1, not after t2. */
  lemma StrayChainDropsEarly(s: State, peer: string, name: string, viewer: string, room: string,
                             rows: Fetch<DbMessage>, hides: Fetch<DbHide>, t0: int, t1: int, t2: int)
    requires Typing.UniqueKeys(s.typing) && peer != "" && s.viewer != Some(peer) && viewer != peer
    requires rows.Ok? && hides.Ok?
    requires t0 < t1 < t0 + Typing.TypingTimeoutMs <= t2 < t1 + Typing.TypingTimeoutMs
    ensures var s1 := OnTypingBroadcast(s, StartAction, peer, name, t0);
      var s2 := Dispose(s1);
      var s3 := Init(s2, viewer, room, rows, hides).state;
      var s4 := OnTypingBroadcast(s3, StartAction, peer, name, t1);
      var s5 := OnTypingBroadcast(s4, StartAction, peer, name, t2);
      var s6 := OnTypingTimers(s5, t1 + Typing.TypingTimeoutMs);
      && Typing.Get(s5.typing, peer) == Some(Typing.Entry(peer, name, t2 + Typing.TypingTimeoutMs))
      && Typing.Get(s6.typing, peer) == None
      && t1 + Typing.TypingTimeoutMs < t2 + Typing.TypingTimeoutMs
  {
    RestartAfterDispose(s, peer, name, viewer, room, rows, hides, t0, t1);
    var s4 := OnTypingBroadcast(Init(Dispose(OnTypingBroadcast(s, StartAction, peer, name, t0)), viewer, room, rows, hides).state,
                                StartAction, peer, name, t1);
    StrayRestartDropsEarly(s4, peer, name, Typing.Entry(peer, name, t0 + Typing.TypingTimeoutMs), t1, t2);
  }

  /** Start, `dispose`, `init`, start again within three seconds: the peer is
      listed with the second start's deadline, and the first start's timer is
      still running as a stray. */
  lemma RestartAfterDispose(s: State, peer: string, name: string, viewer: string, room: string,
                            rows: Fetch<DbMessage>, hides: Fetch<DbHide>, t0: int, t1: int)
    requires Typing.UniqueKeys(s.typing) && peer != "" && s.viewer != Some(peer) && viewer != peer
    requires rows.Ok? && hides.Ok?
    requires t1 < t0 + Typing.TypingTimeoutMs
    ensures var s1 := OnTypingBroadcast(s, StartAction, peer, name, t0);
      var s4 := OnTypingBroadcast(Init(Dispose(s1), viewer, room, rows, hides).state, StartAction, peer, name, t1);
      && Typing.UniqueKeys(s4.typing) && s4.viewer == Some(viewer)
      && Typing.Get(s4.typing, peer) == Some(Typing.Entry(peer, name, t1 + Typing.TypingTimeoutMs))
      && Typing.Entry(peer, name, t0 + Typing.TypingTimeoutMs) in s4.strays
  {
    DisposeKeepsTimer(s, peer, name, viewer, room, rows, hides, t0);
    var s3 := Init(Dispose(OnTypingBroadcast(s, StartAction, peer, name, t0)), viewer, room, rows, hides).state;
    StartKeepsLiveStray(s3, peer, name, Typing.Entry(peer, name, t0 + Typing.TypingTimeoutMs), t1);
  }

  /** After a start, `dispose` and `init`, the table is empty and the start's
      timer runs on as a stray. */
  lemma DisposeKeepsTimer(s: State, peer: string, name: string, viewer: string, room: string,
                          rows: Fetch<DbMessage>, hides: Fetch<DbHide>, t0: int)
    requires Typing.UniqueKeys(s.typing) && peer != "" && s.viewer != Some(peer)
    requires rows.Ok? && hides.Ok?
    ensures var s3 := Init(Dispose(OnTypingBroadcast(s, StartAction, peer, name, t0)), viewer, room, rows, hides).state;
      && s3.typing == [] && s3.viewer == Some(viewer) && s3.subscribed
      && Typing.Entry(peer, name, t0 + Typing.TypingTimeoutMs) in s3.strays
  {
    var s1 := OnTypingBroadcast(s, StartAction, peer, name, t0);
    assert Typing.Entry(peer, name, t0 + Typing.TypingTimeoutMs) in s1.typing;
  }

  /** A start received while a stray timer `e` is still live lists the peer
      and leaves that stray running. */
  lemma StartKeepsLiveStray(s: State, peer: string, name: string, e: Typing.Entry, now: int)
    requires Typing.UniqueKeys(s.typing) && peer != "" && s.viewer != Some(peer)
    requires e in s.strays && now < e.deadline
    ensures var r := OnTypingBroadcast(s, StartAction, peer, name, now);
      && Typing.UniqueKeys(r.typing) && r.viewer == s.viewer && e in r.strays
      && Typing.Get(r.typing, peer) == Some(Typing.Entry(peer, name, now + Typing.TypingTimeoutMs))
  {
    var k :| 0 <= k < |s.strays| && s.strays[k] == e;
  }

  /** With a live entry re-armed at t1 and a stray timer of the peer due by t2,
      a start at t2 lists the peer until t2 + 3000, yet the timer of the t1
      entry, passed on as a stray, deletes it at t1 + 3000. */
  lemma StrayRestartDropsEarly(s: State, peer: string, name: string, e0: Typing.Entry, t1: int, t2: int)
    requires Typing.UniqueKeys(s.typing) && peer != "" && s.viewer != Some(peer)
    requires Typing.Get(s.typing, peer) == Some(Typing.Entry(peer, name, t1 + Typing.TypingTimeoutMs))
    requires e0 in s.strays && e0.userId == peer && e0.deadline <= t2 < t1 + Typing.TypingTimeoutMs
    ensures var s5 := OnTypingBroadcast(s, StartAction, peer, name, t2);
      && Typing.Get(s5.typing, peer) == Some(Typing.Entry(peer, name, t2 + Typing.TypingTimeoutMs))
      && Typing.Get(OnTypingTimers(s5, t1 + Typing.TypingTimeoutMs).typing, peer) == None
  {
    var e1 := Typing.Entry(peer, name, t1 + Typing.TypingTimeoutMs);
    assert StrayDue(s, peer, t2);
    StrayPassesTimerOn(s, peer, e1, t2);
    var s5 := OnTypingBroadcast(s, StartAction, peer, name, t2);
    assert s5.strays == OnTypingTimers(s, t2).strays;
    assert StrayDue(s5, peer, t1 + Typing.TypingTimeoutMs);
  }

  /** A due stray timer removes its user's live entry, and that entry's own
      timer keeps running as a stray. */
  lemma StrayPassesTimerOn(s: State, peer: string, e: Typing.Entry, now: int)
    requires Typing.UniqueKeys(s.typing) && Typing.Get(s.typing, peer) == Some(e)
    requires now < e.deadline && StrayDue(s, peer, now)
    ensures Typing.Get(OnTypingTimers(s, now).typing, peer) == None
    ensures e in OnTypingTimers(s, now).strays
  {
    var k :| 0 <= k < |s.typing| && s.typing[k] == e;
  }

  /** With a `dispose` that cancels the timers, the peer that starts again
      after `init` is listed exactly until three seconds after that start. */
  lemma DisposeCancellingKeepsRestart(s: State, peer: string, name: string, viewer: string, room: string,
                                      rows: Fetch<DbMessage>, hides: Fetch<DbHide>, t0: int, t1: int, now: int)
    requires Typing.UniqueKeys(s.typing) && !Typing.HasKey(s.strays, peer) && peer != "" && s.viewer != Some(peer)
    requires viewer != peer && t0 < t1 && rows.Ok? && hides.Ok?
    ensures var s1 := OnTypingBroadcast(s, StartAction, peer, name, t0);
      var s2 := DisposeCancellingTimers(s1);
      var s3 := Init(s2, viewer, room, rows, hides).state;
      var s4 := OnTypingBroadcast(s3, StartAction, peer, name, t1);
      Typing.Get(OnTypingTimers(s4, now).typing, peer).Some? <==> now < t1 + Typing.TypingTimeoutMs
  {
    var s1 := OnTypingBroadcast(s, StartAction, peer, name, t0);
    NoStrayStaysNone(s, peer, t0);
    var s3 := Init(DisposeCancellingTimers(s1), viewer, room, rows, hides).state;
    var s4 := OnTypingBroadcast(s3, StartAction, peer, name, t1);
    NoStrayStaysNone(s3, peer, t1);
    assert !StrayDue(s4, peer, now);
  }
}

=== FILE: messages.dfy ===
/** The message rows of the backend, the client-side `Message` record, and the
mapping between them (`sid` and `mapDbToMessage` in lib/chat.ts), together with
the list operations the chat service and the chat room apply to message lists.
 */
module Messages {
  import opened Wrappers
  import Text

  /** A row key: a BIGINT key arrives as a number, a UUID key as a string. */
  datatype DbKey = NumKey(n: int) | StrKey(s: string)

  /** Row `type` column. */
  datatype RowType = TextRow | ImageRow

  /** A `messages` row as the backend delivers it; nullable columns are options.
      `createdAt` is the row's creation instant in milliseconds. */
  datatype DbMessage = DbMessage(
    id: DbKey,
    room: string,
    userId: Option<string>,
    username: Option<string>,
    content: Option<string>,
    kind: Option<RowType>,
    attachmentUrl: Option<string>,
    deletedForAll: Option<bool>,
    createdAt: int)

  /** A `message_hides` row: viewer `userId` does not want to see `messageId`. */
  datatype DbHide = DbHide(id: string, userId: string, messageId: DbKey)

  /** The client-side message record. `timestamp` is in milliseconds. */
  datatype Message = Message(
    id: string,
    username: string,
    content: string,
    timestamp: int,
    userId: string,
    fileUrl: Option<string>,
    fileName: Option<string>,
    fileType: Option<string>,
    deletedFor: seq<string>)

  const DeletedPlaceholder: string := "This message was deleted."
  const ImageFileType: string := "image/*"
  const DefaultUsername: string := "User"

  /** `sid`: the string form of a row key. A numeric key reads back as itself,
      so distinct numeric keys never share an id. */
  function Sid(k: DbKey): (r: string)
    ensures k.StrKey? ==> r == k.s
    ensures k.NumKey? ==> Text.ParseInt(r) == Some(k.n)
  {
    match k
    case NumKey(n) => Text.IntToStringRoundTrip(n); Text.IntToString(n)
    case StrKey(s) => s
  }

  /** A numeric key and the string of its digits are the same message id. */
  lemma SidNumberAndStringAgree(n: int)
    ensures Sid(NumKey(n)) == Sid(StrKey(Text.IntToString(n)))
  {
  }

  /** JavaScript truthiness of `row.deleted_for_all`. */
  predicate IsDeletedForAll(row: DbMessage) {
    row.deletedForAll == Some(true)
  }

  /** `row.type === 'image' && row.attachment_url`: an image row with a non-empty URL. */
  predicate HasImage(row: DbMessage) {
    row.kind == Some(ImageRow) && row.attachmentUrl.Some? && row.attachmentUrl.value != ""
  }

  /** `mapDbToMessage`: a tombstoned row shows the deletion placeholder and no
      attachment; otherwise a missing content is empty and an image row with a
      URL carries that URL with the generic image type. */
  function MapDbToMessage(row: DbMessage): (m: Message)
    ensures m.id == Sid(row.id) && m.timestamp == row.createdAt
    ensures m.userId == row.userId.GetOr("") && m.username == row.username.GetOr(DefaultUsername)
    ensures m.fileName == None && m.deletedFor == []
    ensures IsDeletedForAll(row) ==> m.content == DeletedPlaceholder && m.fileUrl == None && m.fileType == None
    ensures !IsDeletedForAll(row) ==> m.content == row.content.GetOr("")
    ensures m.fileUrl.Some? <==> !IsDeletedForAll(row) && HasImage(row)
    ensures m.fileUrl.Some? ==> m.fileUrl.value == row.attachmentUrl.value && m.fileUrl.value != ""
    ensures m.fileType.Some? <==> m.fileUrl.Some?
    ensures m.fileType.Some? ==> m.fileType.value == ImageFileType
  {
    var deleted := IsDeletedForAll(row);
    var image := HasImage(row);
    Message(
      Sid(row.id),
      row.username.GetOr(DefaultUsername),
      if deleted then DeletedPlaceholder else row.content.GetOr(""),
      row.createdAt,
      row.userId.GetOr(""),
      if deleted then None else if image then Some(row.attachmentUrl.value) else None,
      None,
      if deleted then None else if image then Some(ImageFileType) else None,
      [])
  }

  /** The row after the update a deletion for everyone issues: flag set,
      content and attachment cleared. */
  function MarkedDeleted(row: DbMessage): DbMessage {
    row.(deletedForAll := Some(true), content := None, attachmentUrl := None)
  }

  /** Marking a row deleted-for-everyone (the update `deleteMessage` issues:
      flag set, content and attachment cleared) turns its mapping into a
      tombstone that keeps id, author and time. */
  lemma TombstoneKeepsIdentity(row: DbMessage)
    ensures var t := MapDbToMessage(MarkedDeleted(row));
      var m := MapDbToMessage(row);
      && t.id == m.id && t.userId == m.userId && t.username == m.username && t.timestamp == m.timestamp
      && t.content == DeletedPlaceholder && t.fileUrl == None && t.fileType == None
  {
  }

  // ---------------------------------------------------------------------------
  // Message lists
  // ---------------------------------------------------------------------------

  function Ids(ms: seq<Message>): (r: seq<string>)
    ensures |r| == |ms|
    ensures forall k :: 0 <= k < |ms| ==> r[k] == ms[k].id
  {
    if |ms| == 0 then [] else Ids(ms[..|ms| - 1]) + [ms[|ms| - 1].id]
  }

  predicate HasId(ms: seq<Message>, id: string) {
    exists k :: 0 <= k < |ms| && ms[k].id == id
  }

  /** An id is listed when it heads the list or is listed in the rest. */
  lemma HasIdCons(ms: seq<Message>, id: string)
    requires |ms| > 0
    ensures HasId(ms, id) <==> ms[0].id == id || HasId(ms[1..], id)
  {
    if HasId(ms, id) && ms[0].id != id {
      var k :| 0 <= k < |ms| && ms[k].id == id;
      assert ms[1..][k - 1] == ms[k];
    }
    if HasId(ms[1..], id) {
      var k :| 0 <= k < |ms[1..]| && ms[1..][k].id == id;
      assert ms[k + 1] == ms[1..][k];
    }
  }

  /** `ms.filter(m => !ids.has(m.id))`: the messages whose id is not in `ids`,
      in their original order. */
  function Without(ms: seq<Message>, ids: set<string>): (r: seq<Message>)
    ensures |r| <= |ms|
    ensures forall k :: 0 <= k < |r| ==> r[k].id !in ids
  {
    if |ms| == 0 then []
    else
      var front := Without(ms[..|ms| - 1], ids);
      var last := ms[|ms| - 1];
      if last.id in ids then front else front + [last]
  }

  /** Filtering keeps exactly the messages whose id lies outside `ids`. */
  lemma {:induction false} WithoutKeeps(ms: seq<Message>, ids: set<string>)
    ensures forall m :: m in Without(ms, ids) <==> m in ms && m.id !in ids
  {
    if |ms| > 0 {
      var init := ms[..|ms| - 1];
      WithoutKeeps(init, ids);
      assert ms == init + [ms[|ms| - 1]];
    }
  }

  /** Filtering distributes over concatenation: relative order is kept. */
  lemma {:induction false} WithoutAppend(a: seq<Message>, b: seq<Message>, ids: set<string>)
    ensures Without(a + b, ids) == Without(a, ids) + Without(b, ids)
  {
    if |b| > 0 {
      var b' := b[..|b| - 1];
      WithoutAppend(a, b', ids);
      assert (a + b)[..|a + b| - 1] == a + b';
    } else {
      assert a + b == a;
    }
  }

  /** Filtering keeps a list whose ids all lie outside `ids` unchanged. */
  lemma {:induction false} WithoutNoop(ms: seq<Message>, ids: set<string>)
    requires forall k :: 0 <= k < |ms| ==> ms[k].id !in ids
    ensures Without(ms, ids) == ms
  {
    if |ms| > 0 {
      var init := ms[..|ms| - 1];
      WithoutNoop(init, ids);
      assert init + [ms[|ms| - 1]] == ms;
    }
  }

  /** Filtering out a set holding every listed id leaves nothing. */
  lemma {:induction false} WithoutEverything(ms: seq<Message>, ids: set<string>)
    requires forall k :: 0 <= k < |ms| ==> ms[k].id in ids
    ensures Without(ms, ids) == []
  {
    if |ms| > 0 {
      WithoutEverything(ms[..|ms| - 1], ids);
    }
  }

  /** Filtering twice by the same set is filtering once. */
  lemma WithoutIdempotent(ms: seq<Message>, ids: set<string>)
    ensures Without(Without(ms, ids), ids) == Without(ms, ids)
  {
    WithoutNoop(Without(ms, ids), ids);
  }

  /** `ms.findIndex(x => x.id === id)`: the first position holding `id`, or -1. */
  function FindIndex(ms: seq<Message>, id: string): (i: int)
    ensures -1 <= i < |ms|
    ensures i >= 0 ==> ms[i].id == id
    ensures forall k :: 0 <= k < |ms| && (i < 0 || k < i) ==> ms[k].id != id
  {
    if |ms| == 0 then -1
    else if ms[0].id == id then 0
    else
      var j := FindIndex(ms[1..], id);
      if j < 0 then -1 else j + 1
  }
}

=== FILE: text.dfy ===
/** String helpers behind the JavaScript built-ins the chat client relies on:
`String.prototype.trim`, `startsWith`, `split` with a one-character separator,
`join`, `charAt(0).toUpperCase()` and `String(n)` for an integer `n`.
Strings are `seq<char>`.
 */
module Text {
  import opened Wrappers

  // ---------------------------------------------------------------------------
  // Whitespace and trim
  // ---------------------------------------------------------------------------

  /** The characters `String.prototype.trim` strips: the ECMAScript WhiteSpace
      and LineTerminator code points. */
  const Whitespace: set<char> := {
    ' ', '\t', '\n', '\r', '\U{000B}', '\U{000C}', '\U{00A0}', '\U{1680}',
    '\U{2000}', '\U{2001}', '\U{2002}', '\U{2003}', '\U{2004}', '\U{2005}',
    '\U{2006}', '\U{2007}', '\U{2008}', '\U{2009}', '\U{200A}',
    '\U{2028}', '\U{2029}', '\U{202F}', '\U{205F}', '\U{3000}', '\U{FEFF}'
  }

  predicate IsWhitespace(c: char) {
    c in Whitespace
  }

  predicate AllWhitespace(s: string) {
    forall k :: 0 <= k < |s| ==> IsWhitespace(s[k])
  }

  /** How many whitespace characters `s` starts with. */
  function LeadingWhitespace(s: string): (n: nat)
    ensures n <= |s|
    ensures AllWhitespace(s[..n])
    ensures n < |s| ==> !IsWhitespace(s[n])
  {
    if |s| > 0 && IsWhitespace(s[0]) then
      var n := 1 + LeadingWhitespace(s[1..]);
      assert forall k :: 1 <= k < n ==> s[..n][k] == s[1..][..n - 1][k - 1];
      n
    else 0
  }

  /** How many whitespace characters `s` ends with. */
  function TrailingWhitespace(s: string): (n: nat)
    ensures n <= |s|
    ensures AllWhitespace(s[|s| - n..])
    ensures n < |s| ==> !IsWhitespace(s[|s| - n - 1])
  {
    if |s| > 0 && IsWhitespace(s[|s| - 1]) then
      var n := 1 + TrailingWhitespace(s[..|s| - 1]);
      n
    else 0
  }

  /** `s` with its leading whitespace removed. */
  function TrimStart(s: string): (r: string)
    ensures |r| <= |s| && r == s[|s| - |r|..]
    ensures AllWhitespace(s[..|s| - |r|])
    ensures |r| > 0 ==> !IsWhitespace(r[0])
  {
    s[LeadingWhitespace(s)..]
  }

  /** `s` with its trailing whitespace removed. */
  function TrimEnd(s: string): (r: string)
    ensures |r| <= |s| && r == s[..|r|]
    ensures AllWhitespace(s[|r|..])
    ensures |r| > 0 ==> !IsWhitespace(r[|r| - 1])
  {
    s[..|s| - TrailingWhitespace(s)]
  }

  /** `s.trim()`: `s` without whitespace on either side. */
  function Trim(s: string): (r: string)
    ensures |r| <= |s|
    ensures |r| > 0 ==> !IsWhitespace(r[0]) && !IsWhitespace(r[|r| - 1])
  {
    TrimEnd(TrimStart(s))
  }

  /** Slicing a suffix again is slicing the original. */
  lemma SliceOfSuffix(s: string, a: nat, n: nat)
    requires a + n <= |s|
    ensures s[a..][n..] == s[a + n..]
  {
  }

  /** A prefix of a suffix of `s` is the slice of `s` between them. */
  lemma PrefixOfSuffix(s: string, t: string, r: string)
    requires |t| <= |s| && t == s[|s| - |t|..]
    requires |r| <= |t| && r == t[..|r|]
    ensures r == s[|s| - |t|..|s| - |t| + |r|]
  {
    assert forall k :: 0 <= k < |r| ==> r[k] == t[k] == s[|s| - |t| + k];
  }

  /** `s.trim()` is a contiguous piece of `s`, starting where the leading
      whitespace ends. */
  lemma TrimIsInfix(s: string)
    ensures |s| - |TrimStart(s)| + |Trim(s)| <= |s|
    ensures Trim(s) == s[|s| - |TrimStart(s)|..|s| - |TrimStart(s)| + |Trim(s)|]
  {
    PrefixOfSuffix(s, TrimStart(s), TrimEnd(TrimStart(s)));
  }

  /** Everything `s.trim()` drops on either side of it is whitespace. */
  lemma TrimDropsWhitespace(s: string)
    ensures |s| - |TrimStart(s)| + |Trim(s)| <= |s|
    ensures AllWhitespace(s[..|s| - |TrimStart(s)|])
    ensures AllWhitespace(s[|s| - |TrimStart(s)| + |Trim(s)|..])
  {
    var t := TrimStart(s);
    SliceOfSuffix(s, |s| - |t|, |TrimEnd(t)|);
  }

  /** JavaScript truthiness of `s.trim()`: false exactly for blank strings. */
  predicate IsBlank(s: string) {
    Trim(s) == ""
  }

  /** `s.trim()` is empty exactly when every character of `s` is whitespace. */
  lemma BlankIffAllWhitespace(s: string)
    ensures IsBlank(s) <==> AllWhitespace(s)
  {
    var r := Trim(s);
    var a := |s| - |TrimStart(s)|;
    TrimIsInfix(s);
    TrimDropsWhitespace(s);
    if r == "" {
      assert a == |s|;
      assert s[..a] == s;
    } else {
      assert s[a] == r[0];
    }
  }

  // ---------------------------------------------------------------------------
  // Prefixes
  // ---------------------------------------------------------------------------

  /** `s.startsWith(prefix)`. */
  predicate StartsWith(s: string, prefix: string) {
    |prefix| <= |s| && s[..|prefix|] == prefix
  }

  // ---------------------------------------------------------------------------
  // split / join on a one-character separator
  // ---------------------------------------------------------------------------

  /** `s.indexOf(c, from)`, with `|s|` standing for "not found": the first
      position at or after `from` holding `c`. */
  function FindFrom(s: string, c: char, from: nat): (i: nat)
    requires from <= |s|
    ensures from <= i <= |s|
    ensures i < |s| ==> s[i] == c
    ensures forall k :: from <= k < i ==> s[k] != c
    decreases |s| - from
  {
    if from == |s| || s[from] == c then from else FindFrom(s, c, from + 1)
  }

  /** The pieces of `s.slice(from).split(sep)`, read off `s` itself. */
  function SplitFrom(s: string, sep: char, from: nat): (r: seq<string>)
    requires from <= |s|
    ensures |r| >= 1
    decreases |s| - from
  {
    var i := FindFrom(s, sep, from);
    if i == |s| then [s[from..]] else [s[from..i]] + SplitFrom(s, sep, i + 1)
  }

  /** `s.split(sep)` for a one-character separator: the pieces between
      separators, never an empty list (`"".split(" ")` is `[""]`). The first
      piece runs up to the first separator, and there is a single piece
      exactly when the separator does not occur. */
  function Split(s: string, sep: char): (r: seq<string>)
    ensures |r| >= 1
    ensures r[0] == s[..FindFrom(s, sep, 0)]
    ensures |r| == 1 <==> sep !in s
  {
    var i := FindFrom(s, sep, 0);
    assert i == |s| ==> s[..i] == s[0..];
    assert i < |s| ==> sep in s;
    SplitFrom(s, sep, 0)
  }

  /** No piece holds the separator. */
  lemma {:induction false} SplitFromLacksSeparator(s: string, sep: char, from: nat)
    requires from <= |s|
    ensures forall k :: 0 <= k < |SplitFrom(s, sep, from)| ==> sep !in SplitFrom(s, sep, from)[k]
    decreases |s| - from
  {
    var i := FindFrom(s, sep, from);
    var p := SplitFrom(s, sep, from);
    assert forall k :: 0 <= k < i - from ==> s[from..i][k] == s[from + k];
    if i < |s| {
      var rest := SplitFrom(s, sep, i + 1);
      SplitFromLacksSeparator(s, sep, i + 1);
      assert forall k :: 1 <= k < |p| ==> p[k] == rest[k - 1];
    }
  }

  /** No piece of a split holds the separator. */
  lemma SplitPiecesLackSeparator(s: string, sep: char)
    ensures forall k :: 0 <= k < |Split(s, sep)| ==> sep !in Split(s, sep)[k]
  {
    SplitFromLacksSeparator(s, sep, 0);
  }

  /** `s.split(sep).pop()`: the longest suffix of `s` free of the separator.
      It is the whole string when the separator does not occur, and otherwise
      the separator stands just before it. */
  function LastPiece(s: string, sep: char): (r: string)
    ensures sep !in r
    ensures |r| <= |s| && s[|s| - |r|..] == r
    ensures sep !in s ==> r == s
    ensures sep in s ==> |r| < |s| && s[|s| - |r| - 1] == sep
  {
    var p := Split(s, sep);
    SplitPiecesLackSeparator(s, sep);
    LastPieceFrom(s, sep, 0);
    assert sep in s ==> FindFrom(s, sep, 0) < |s|;
    p[|p| - 1]
  }

  /** The last piece from `from` on is a suffix of `s` starting no earlier than
      `from`, preceded by the separator when one occurs from `from` on. */
  lemma {:induction false} LastPieceFrom(s: string, sep: char, from: nat)
    requires from <= |s|
    ensures var p := SplitFrom(s, sep, from);
      && from + |p[|p| - 1]| <= |s| && s[|s| - |p[|p| - 1]|..] == p[|p| - 1]
      && (FindFrom(s, sep, from) < |s| ==> from + |p[|p| - 1]| < |s| && s[|s| - |p[|p| - 1]| - 1] == sep)
    decreases |s| - from
  {
    var i := FindFrom(s, sep, from);
    if i < |s| {
      LastPieceFrom(s, sep, i + 1);
      var rest := SplitFrom(s, sep, i + 1);
      assert SplitFrom(s, sep, from)[|SplitFrom(s, sep, from)| - 1] == rest[|rest| - 1];
      if FindFrom(s, sep, i + 1) == |s| {
        assert rest == [s[i + 1..]];
      }
    }
  }

  /** `words.join(sep)`: the words with one separator between neighbours. */
  function Join(words: seq<string>, sep: char): (r: string)
    ensures |words| == 1 ==> r == words[0]
  {
    if |words| == 0 then ""
    else if |words| == 1 then words[0]
    else words[0] + [sep] + Join(words[1..], sep)
  }

  /** A string is the part before position `i`, the character there, and the rest. */
  lemma Reassemble(s: string, from: nat, i: nat)
    requires from <= i < |s|
    ensures s[from..i] + [s[i]] + s[i + 1..] == s[from..]
  {
  }

  /** Joining the pieces from `from` on gives back the rest of the string. */
  lemma {:induction false} JoinSplitFrom(s: string, sep: char, from: nat)
    requires from <= |s|
    ensures Join(SplitFrom(s, sep, from), sep) == s[from..]
    decreases |s| - from
  {
    var i := FindFrom(s, sep, from);
    if i < |s| {
      var rest := SplitFrom(s, sep, i + 1);
      JoinSplitFrom(s, sep, i + 1);
      var r := SplitFrom(s, sep, from);
      assert r[1..] == rest;
      Reassemble(s, from, i);
    }
  }

  /** Joining the pieces of a split gives back the original string. */
  lemma JoinSplit(s: string, sep: char)
    ensures Join(Split(s, sep), sep) == s
  {
    JoinSplitFrom(s, sep, 0);
    assert s[0..] == s;
  }

  /** Searching `a + t` past `a` is searching `t`, shifted by `|a|`. */
  lemma {:induction false} FindFromShift(a: string, t: string, c: char, from: nat)
    requires from <= |t|
    ensures FindFrom(a + t, c, |a| + from) == |a| + FindFrom(t, c, from)
    decreases |t| - from
  {
    if from < |t| && t[from] != c {
      FindFromShift(a, t, c, from + 1);
    }
  }

  /** Splitting `a + t` past `a` is splitting `t`. */
  lemma {:induction false} SplitFromShift(a: string, t: string, sep: char, from: nat)
    requires from <= |t|
    ensures SplitFrom(a + t, sep, |a| + from) == SplitFrom(t, sep, from)
    decreases |t| - from
  {
    FindFromShift(a, t, sep, from);
    var i := FindFrom(t, sep, from);
    ShiftSlice(a, t, from, i);
    if i < |t| {
      SplitFromShift(a, t, sep, i + 1);
      assert SplitFrom(t, sep, from) == [t[from..i]] + SplitFrom(t, sep, i + 1);
    } else {
      assert SplitFrom(t, sep, from) == [t[from..]];
    }
  }

  /** Slices of `a + t` past `a` are slices of `t`. */
  lemma ShiftSlice(a: string, t: string, x: nat, y: nat)
    requires x <= y <= |t|
    ensures (a + t)[|a| + x..|a| + y] == t[x..y]
    ensures (a + t)[|a| + x..] == t[x..]
  {
  }

  /** A position holding `c` with no `c` between `from` and it is the one
      `FindFrom` finds. */
  lemma FindFromIs(s: string, c: char, from: nat, j: nat)
    requires from <= j < |s| && s[j] == c
    requires forall k :: from <= k < j ==> s[k] != c
    ensures FindFrom(s, c, from) == j
  {
  }

  /** Splitting `w + sep + t` when `w` holds no separator. */
  lemma SplitAfterWord(w: string, t: string, sep: char)
    requires sep !in w
    ensures Split(w + [sep] + t, sep) == [w] + Split(t, sep)
  {
    var a := w + [sep];
    var s := a + t;
    assert forall k :: 0 <= k < |w| ==> s[k] == w[k];
    FindFromIs(s, sep, 0, |w|);
    assert s[0..|w|] == w;
    SplitFromShift(a, t, sep, 0);
  }

  /** A string without the separator splits into itself. */
  lemma NoSeparatorSplit(w: string, sep: char)
    requires sep !in w
    ensures Split(w, sep) == [w]
  {
  }

  /** Splitting a join gives back the words when no word holds the separator. */
  lemma {:induction false} SplitJoin(words: seq<string>, sep: char)
    requires |words| >= 1
    requires forall k :: 0 <= k < |words| ==> sep !in words[k]
    ensures Split(Join(words, sep), sep) == words
  {
    if |words| == 1 {
      NoSeparatorSplit(words[0], sep);
    } else {
      SplitJoin(words[1..], sep);
      SplitAfterWord(words[0], Join(words[1..], sep), sep);
      assert [words[0]] + words[1..] == words;
    }
  }

  // ---------------------------------------------------------------------------
  // Case
  // ---------------------------------------------------------------------------

  /** `toUpperCase` on one character, restricted to the ASCII letters. */
  function ToUpper(c: char): (r: char)
    ensures 'a' <= c <= 'z' ==> 'A' <= r <= 'Z' && r as int - 'A' as int == c as int - 'a' as int
    ensures !('a' <= c <= 'z') ==> r == c
  {
    if 'a' <= c <= 'z' then (c as int - 'a' as int + 'A' as int) as char else c
  }

  // ---------------------------------------------------------------------------
  // Decimal form of integers: String(n) and its inverse
  // ---------------------------------------------------------------------------

  predicate IsDigit(c: char) {
    '0' <= c <= '9'
  }

  function DigitChar(d: nat): (c: char)
    requires d < 10
    ensures IsDigit(c)
  {
    ('0' as int + d) as char
  }

  function DigitValue(c: char): (d: nat)
    requires IsDigit(c)
    ensures d < 10
  {
    c as int - '0' as int
  }

  /** `String(n)` for a non-negative integer: its decimal digits, no leading zero. */
  function NatToString(n: nat): (r: string)
    ensures |r| >= 1
    ensures forall k :: 0 <= k < |r| ==> IsDigit(r[k])
    ensures |r| > 1 ==> r[0] != '0'
  {
    if n < 10 then [DigitChar(n)] else NatToString(n / 10) + [DigitChar(n % 10)]
  }

  /** `String(n)` for an integer: a leading '-' for negatives. */
  function IntToString(n: int): (r: string)
    ensures |r| >= 1
    ensures n < 0 <==> r[0] == '-'
  {
    if n < 0 then "-" + NatToString(-n) else NatToString(n)
  }

  /** The value of a string of decimal digits. */
  function DigitsValue(s: string): nat
    requires forall k :: 0 <= k < |s| ==> IsDigit(s[k])
  {
    if |s| == 0 then 0 else DigitsValue(s[..|s| - 1]) * 10 + DigitValue(s[|s| - 1])
  }

  /** Reads back a decimal integer; `None` for anything that is not one. */
  function ParseInt(s: string): Option<int> {
    if |s| > 0 && s[0] == '-' then
      var t := s[1..];
      if |t| > 0 && forall k :: 0 <= k < |t| ==> IsDigit(t[k]) then (var v: int := DigitsValue(t); Some(-v)) else None
    else if |s| > 0 && forall k :: 0 <= k < |s| ==> IsDigit(s[k]) then Some(DigitsValue(s))
    else None
  }

  lemma {:induction false} DigitsOfNat(n: nat)
    ensures DigitsValue(NatToString(n)) == n
  {
    var r := NatToString(n);
    if n < 10 {
      assert r[..0] == "";
    } else {
      DigitsOfNat(n / 10);
      assert r[..|r| - 1] == NatToString(n / 10);
    }
  }

  /** `String(n)` reads back as `n`: distinct integers have distinct decimal forms. */
  lemma IntToStringRoundTrip(n: int)
    ensures ParseInt(IntToString(n)) == Some(n)
  {
    var r := IntToString(n);
    if n < 0 {
      DigitsOfNat(-n);
      assert r[1..] == NatToString(-n);
    } else {
      DigitsOfNat(n);
    }
  }

  lemma IntToStringInjective(a: int, b: int)
    ensures IntToString(a) == IntToString(b) ==> a == b
  {
    IntToStringRoundTrip(a);
    IntToStringRoundTrip(b);
  }
}

=== FILE: typing.dfy ===
/** The typing-presence table of the chat service (`typingUsers`, `applyTyping`,
`clearTyping`, `getTypingList` and the expiry timer in lib/chat.ts).

The source keeps a JavaScript `Map` from user id to `{ username, timeout }`.
A `Map` iterates in insertion order and `set` on a present key keeps its
position, and `getTypingList` exposes that order, so the table is a sequence
of entries in insertion order. The expiry timer is a deadline on a logical
clock in milliseconds: re-arming replaces the deadline, and the timer fires
once the clock reaches it.
 */
module Typing {
  import opened Wrappers

  /** How long a "start" keeps a peer listed without another "start". */
  const TypingTimeoutMs: int := 3000
  const AnonymousTypist: string := "Someone"

  datatype Entry = Entry(userId: string, username: string, deadline: int)

  /** An entry of `getTypingList`. */
  datatype TypingUser = TypingUser(userId: string, username: string)

  type Table = seq<Entry>

  /** Map keys are unique. */
  predicate UniqueKeys(t: Table) {
    forall i, j :: 0 <= i < j < |t| ==> t[i].userId != t[j].userId
  }

  predicate HasKey(t: Table, userId: string) {
    exists k :: 0 <= k < |t| && t[k].userId == userId
  }

  /** Position of `userId`'s entry, or -1. */
  function IndexOf(t: Table, userId: string): (i: int)
    ensures -1 <= i < |t|
    ensures i >= 0 ==> t[i].userId == userId
    ensures i < 0 <==> !HasKey(t, userId)
    ensures forall k :: 0 <= k < |t| && (i < 0 || k < i) ==> t[k].userId != userId
  {
    if |t| == 0 then -1
    else if t[0].userId == userId then 0
    else
      var j := IndexOf(t[1..], userId);
      assert forall k :: 1 <= k < |t| ==> t[1..][k - 1] == t[k];
      if j < 0 then -1 else j + 1
  }

  /** `typingUsers.get(userId)`. */
  function Get(t: Table, userId: string): (r: Option<Entry>)
    ensures r.Some? <==> HasKey(t, userId)
    ensures r.Some? ==> r.value in t && r.value.userId == userId
  {
    var i := IndexOf(t, userId);
    if i < 0 then None else Some(t[i])
  }

  /** `typingUsers.set(userId, ...)`: in place when present, appended otherwise. */
  function Put(t: Table, e: Entry): (r: Table)
    ensures HasKey(t, e.userId) ==> (|r| == |t| && r[IndexOf(t, e.userId)] == e
      && forall k :: 0 <= k < |t| && k != IndexOf(t, e.userId) ==> r[k] == t[k])
    ensures !HasKey(t, e.userId) ==> r == t + [e]
  {
    var i := IndexOf(t, e.userId);
    if i < 0 then t + [e] else t[i := e]
  }

  /** The subsequence of `t` whose entries satisfy `keep`. */
  function Filter(t: Table, keep: Entry -> bool): (r: Table)
    ensures |r| <= |t|
    ensures forall k :: 0 <= k < |r| ==> r[k] in t && keep(r[k])
    ensures forall k :: 0 <= k < |t| && keep(t[k]) ==> t[k] in r
  {
    if |t| == 0 then []
    else
      var front := Filter(t[..|t| - 1], keep);
      var last := t[|t| - 1];
      assert forall k :: 0 <= k < |t| - 1 ==> t[k] == t[..|t| - 1][k];
      if keep(last) then front + [last] else front
  }

  /** Filtering a concatenation filters each part: the kept entries stay in
      their order. With `FilterOne` this pins the result of every filter. */
  lemma {:induction false} FilterAppend(a: Table, b: Table, keep: Entry -> bool)
    ensures Filter(a + b, keep) == Filter(a, keep) + Filter(b, keep)
    decreases |b|
  {
    if |b| == 0 {
      assert a + b == a;
    } else {
      var b' := b[..|b| - 1];
      assert (a + b)[..|a + b| - 1] == a + b';
      assert (a + b)[|a + b| - 1] == b[|b| - 1];
      FilterAppend(a, b', keep);
    }
  }

  /** A single entry is kept exactly when `keep` holds for it. */
  lemma FilterOne(e: Entry, keep: Entry -> bool)
    ensures Filter([e], keep) == if keep(e) then [e] else []
  {
    assert [e][..0] == [];
  }

  /** The entries whose user is not in `users`. */
  function NotOf(users: set<string>): Entry -> bool
  {
    (e: Entry) => e.userId !in users
  }

  /** The entries whose user is in `users`. */
  function OnlyOf(users: set<string>): Entry -> bool
  {
    (e: Entry) => e.userId in users
  }

  /** The entries whose timer has not fired by `now`. */
  function LiveAt(now: int): Entry -> bool
  {
    (e: Entry) => now < e.deadline
  }

  /** Dropping entries from a table with unique keys keeps the keys unique and
      leaves every surviving key's entry as it was. */
  lemma {:induction false} FilterKeepsEntries(t: Table, keep: Entry -> bool)
    requires UniqueKeys(t)
    ensures UniqueKeys(Filter(t, keep))
    ensures forall u :: HasKey(Filter(t, keep), u) ==> Get(Filter(t, keep), u) == Get(t, u)
  {
    if |t| > 0 {
      var t' := t[..|t| - 1];
      assert forall k :: 0 <= k < |t| - 1 ==> t[k] == t'[k];
      FilterKeepsEntries(t', keep);
      var front := Filter(t', keep);
      var r := Filter(t, keep);
      forall u | HasKey(r, u) ensures Get(r, u) == Get(t, u) {
        var k :| 0 <= k < |r| && r[k].userId == u;
        var j :| 0 <= j < |t| && t[j] == r[k];
        GetIs(r, k);
        GetIs(t, j);
      }
    }
  }

  /** `typingUsers.delete(userId)`: every entry of `userId` goes, the rest keep their order. */
  function Delete(t: Table, userId: string): (r: Table)
    ensures !HasKey(r, userId)
    ensures forall k :: 0 <= k < |t| && t[k].userId != userId ==> t[k] in r
  {
    Filter(t, NotOf({userId}))
  }

  /** `applyTyping`: (re-)arm `userId`'s entry to expire TypingTimeoutMs after `now`. */
  function Apply(t: Table, userId: string, username: string, now: int): (r: Table)
    ensures Get(r, userId) == Some(Entry(userId, username, now + TypingTimeoutMs))
    ensures forall u :: u != userId ==> Get(r, u) == Get(t, u)
    ensures UniqueKeys(t) ==> UniqueKeys(r)
    ensures !HasKey(t, userId) ==> r == t + [Entry(userId, username, now + TypingTimeoutMs)]
    ensures HasKey(t, userId) ==> |r| == |t| && forall k :: 0 <= k < |t| ==> r[k].userId == t[k].userId
  {
    var e := Entry(userId, username, now + TypingTimeoutMs);
    PutFacts(t, e);
    Put(t, e)
  }

  lemma PutFacts(t: Table, e: Entry)
    ensures Get(Put(t, e), e.userId) == Some(e)
    ensures forall u :: u != e.userId ==> Get(Put(t, e), u) == Get(t, u)
    ensures UniqueKeys(t) ==> UniqueKeys(Put(t, e))
  {
    var r := Put(t, e);
    var i := IndexOf(t, e.userId);
    forall u | u != e.userId ensures Get(r, u) == Get(t, u) {
      var j := IndexOf(t, u);
      if j >= 0 {
        IndexOfIs(r, u, j);
      } else {
        assert !HasKey(r, u);
      }
    }
    IndexOfIs(r, e.userId, if i < 0 then |t| else i);
    if UniqueKeys(t) {
      assert forall k :: 0 <= k < |r| ==> r[k].userId == (if k == i || k == |t| then e.userId else t[k].userId);
    }
  }

  /** The first position holding a key is its index. */
  lemma IndexOfIs(t: Table, userId: string, i: int)
    requires 0 <= i < |t| && t[i].userId == userId
    requires forall k :: 0 <= k < i ==> t[k].userId != userId
    ensures IndexOf(t, userId) == i
  {
  }

  /** With unique keys, the entry holding a key is the one `get` returns. */
  lemma GetIs(t: Table, k: int)
    requires UniqueKeys(t) && 0 <= k < |t|
    ensures Get(t, t[k].userId) == Some(t[k])
  {
    IndexOfIs(t, t[k].userId, k);
  }

  /** `clearTyping`: `userId` is no longer listed; everybody else is untouched. */
  function Clear(t: Table, userId: string): (r: Table)
    ensures Get(r, userId) == None
    ensures UniqueKeys(t) ==> UniqueKeys(r) && forall u :: u != userId ==> Get(r, u) == Get(t, u)
  {
    ClearFacts(t, userId);
    Delete(t, userId)
  }

  lemma ClearFacts(t: Table, userId: string)
    ensures UniqueKeys(t) ==> (UniqueKeys(Delete(t, userId))
      && forall u :: u != userId ==> Get(Delete(t, userId), u) == Get(t, u))
  {
    var r := Delete(t, userId);
    if UniqueKeys(t) {
      FilterKeepsEntries(t, NotOf({userId}));
      forall u | u != userId && HasKey(t, u) ensures HasKey(r, u) {
        var k :| 0 <= k < |t| && t[k].userId == u;
        assert t[k] in r;
      }
    }
  }

  /** The table without any entry of `users`; everybody else keeps their
      entry and the order is kept. */
  function DropUsers(t: Table, users: set<string>): (r: Table)
    ensures forall u :: u in users ==> !HasKey(r, u)
    ensures forall k :: 0 <= k < |r| ==> r[k] in t
    ensures forall k :: 0 <= k < |t| && t[k].userId !in users ==> t[k] in r
    ensures UniqueKeys(t) ==> UniqueKeys(r) && forall u :: u !in users ==> Get(r, u) == Get(t, u)
  {
    DropFacts(t, users);
    Filter(t, NotOf(users))
  }

  lemma DropFacts(t: Table, users: set<string>)
    ensures var r := Filter(t, NotOf(users));
      UniqueKeys(t) ==> (UniqueKeys(r) && forall u :: u !in users ==> Get(r, u) == Get(t, u))
  {
    var keep := NotOf(users);
    var r := Filter(t, keep);
    if UniqueKeys(t) {
      FilterKeepsEntries(t, keep);
      forall u | u !in users && HasKey(t, u) ensures HasKey(r, u) {
        var k :| 0 <= k < |t| && t[k].userId == u;
        assert t[k] in r;
      }
    }
  }

  /** The timers that have fired by `now` have removed their entries: an entry
      survives exactly when its deadline lies after `now`. */
  function Expire(t: Table, now: int): (r: Table)
    ensures forall k :: 0 <= k < |r| ==> r[k] in t && now < r[k].deadline
    ensures forall k :: 0 <= k < |t| && now < t[k].deadline ==> t[k] in r
    ensures UniqueKeys(t) ==> UniqueKeys(r)
    ensures UniqueKeys(t) ==> forall u :: (Get(r, u).Some? <==> Get(t, u).Some? && now < Get(t, u).value.deadline)
    ensures UniqueKeys(t) ==> forall u :: Get(r, u).Some? ==> Get(r, u) == Get(t, u)
  {
    ExpireFacts(t, now);
    Filter(t, LiveAt(now))
  }

  lemma ExpireFacts(t: Table, now: int)
    ensures var r := Filter(t, LiveAt(now));
      UniqueKeys(t) ==>
        && UniqueKeys(r)
        && (forall u :: (Get(r, u).Some? <==> Get(t, u).Some? && now < Get(t, u).value.deadline))
        && (forall u :: Get(r, u).Some? ==> Get(r, u) == Get(t, u))
  {
    var keep := LiveAt(now);
    var r := Filter(t, keep);
    if UniqueKeys(t) {
      FilterKeepsEntries(t, keep);
      forall u | Get(t, u).Some? && now < Get(t, u).value.deadline ensures HasKey(r, u) {
        var e := Get(t, u).value;
        assert e in r;
      }
    }
  }

  /** The users with a timer in `timers` due by `now`. */
  function DueUsers(timers: Table, now: int): (r: set<string>)
    ensures forall u :: u in r <==> exists k :: 0 <= k < |timers| && timers[k].userId == u && timers[k].deadline <= now
  {
    set k | 0 <= k < |timers| && timers[k].deadline <= now :: timers[k].userId
  }

  /** Expiring, then dropping `users`: an entry is left exactly when it is
      not expired and its user is not dropped. */
  lemma ExpireThenDrop(t: Table, users: set<string>, now: int)
    ensures UniqueKeys(t) ==> UniqueKeys(DropUsers(Expire(t, now), users))
    ensures UniqueKeys(t) ==> forall u :: Get(DropUsers(Expire(t, now), users), u).Some? <==>
      Get(t, u).Some? && now < Get(t, u).value.deadline && u !in users
  {
  }

  /** The entries of `users` only, in table order: the complement of `DropUsers`. */
  function KeepUsers(t: Table, users: set<string>): (r: Table)
    ensures forall k :: 0 <= k < |r| ==> r[k] in t && r[k].userId in users
    ensures forall k :: 0 <= k < |t| && t[k].userId in users ==> t[k] in r
  {
    Filter(t, OnlyOf(users))
  }

  /** The timers left running once those due by `now` have fired, given the
      stray timers `strays` and the table `t`: the live strays, and the timers
      of the live entries that a due stray of their user has removed. */
  function FireStrays(strays: Table, t: Table, now: int): (r: Table)
    ensures forall k :: 0 <= k < |r| ==>
      (now < r[k].deadline && (r[k] in strays || (r[k] in t && r[k].userId in DueUsers(strays, now))))
    ensures forall k :: 0 <= k < |strays| && now < strays[k].deadline ==> strays[k] in r
    ensures forall k :: 0 <= k < |t| && now < t[k].deadline && t[k].userId in DueUsers(strays, now) ==> t[k] in r
  {
    Expire(strays, now) + KeepUsers(Expire(t, now), DueUsers(strays, now))
  }

  /** `Delete` and `Clear` keep the order of the surviving entries: they act on
      each part of a table separately, and on one entry by its key alone. */
  lemma DeleteInOrder(a: Table, b: Table, e: Entry, userId: string)
    ensures Delete(a + b, userId) == Delete(a, userId) + Delete(b, userId)
    ensures Clear(a + b, userId) == Clear(a, userId) + Clear(b, userId)
    ensures Delete([e], userId) == if e.userId == userId then [] else [e]
  {
    FilterAppend(a, b, NotOf({userId}));
    FilterOne(e, NotOf({userId}));
  }

  /** `DropUsers` keeps the order of the surviving entries. */
  lemma DropUsersInOrder(a: Table, b: Table, e: Entry, users: set<string>)
    ensures DropUsers(a + b, users) == DropUsers(a, users) + DropUsers(b, users)
    ensures DropUsers([e], users) == if e.userId in users then [] else [e]
  {
    FilterAppend(a, b, NotOf(users));
    FilterOne(e, NotOf(users));
  }

  /** `KeepUsers` keeps the order of the entries it keeps. */
  lemma KeepUsersInOrder(a: Table, b: Table, e: Entry, users: set<string>)
    ensures KeepUsers(a + b, users) == KeepUsers(a, users) + KeepUsers(b, users)
    ensures KeepUsers([e], users) == if e.userId in users then [e] else []
  {
    FilterAppend(a, b, OnlyOf(users));
    FilterOne(e, OnlyOf(users));
  }

  /** `Expire` keeps the order of the entries whose timers have not fired. */
  lemma ExpireInOrder(a: Table, b: Table, e: Entry, now: int)
    ensures Expire(a + b, now) == Expire(a, now) + Expire(b, now)
    ensures Expire([e], now) == if now < e.deadline then [e] else []
  {
    FilterAppend(a, b, LiveAt(now));
    FilterOne(e, LiveAt(now));
  }

  /** `getTypingList`: every entry in map order, an empty name shown as "Someone". */
  function List(t: Table): (r: seq<TypingUser>)
    ensures |r| == |t|
    ensures forall k :: 0 <= k < |t| ==> r[k].userId == t[k].userId
    ensures forall k :: 0 <= k < |t| ==> r[k].username != ""
    ensures forall k :: 0 <= k < |t| && t[k].username != "" ==> r[k].username == t[k].username
    ensures forall k :: 0 <= k < |t| && t[k].username == "" ==> r[k].username == AnonymousTypist
  {
    seq(|t|, k requires 0 <= k < |t| => TypingUser(t[k].userId, if t[k].username == "" then AnonymousTypist else t[k].username))
  }
}

=== FILE: typing_indicator.dfy ===
/** The sentence under the message list naming who is typing
(components/typing-indicator.tsx). An empty list renders nothing.
 */
module TypingIndicator {
  import opened Wrappers
  import Text
  import Typing

  const IsTyping: string := " is typing..."
  const AreTyping: string := " are typing..."
  const And: string := " and "
  const Others: string := " others are typing..."

  /** `getTypingText`, with `None` for the empty list the component does not
      render: one name, two names, or the first name and how many others. */
  function TypingText(users: seq<Typing.TypingUser>): (r: Option<string>)
    ensures r.None? <==> |users| == 0
  {
    if |users| == 0 then None
    else if |users| == 1 then Some(users[0].username + IsTyping)
    else if |users| == 2 then Some(users[0].username + And + users[1].username + AreTyping)
    else Some(users[0].username + And + Text.IntToString(|users| - 1) + Others)
  }

  predicate EndsWith(s: string, suffix: string) {
    |suffix| <= |s| && s[|s| - |suffix|..] == suffix
  }

  /** Whether `x + tail` ends with `suffix` is decided by `tail` when the
      suffix is no longer than it; a longer suffix must itself end with `tail`. */
  lemma EndsWithTail(x: string, tail: string, suffix: string)
    ensures |suffix| <= |tail| ==> (EndsWith(x + tail, suffix) <==> EndsWith(tail, suffix))
    ensures |suffix| > |tail| && EndsWith(x + tail, suffix) ==> EndsWith(suffix, tail)
  {
    var s := x + tail;
    if |suffix| <= |tail| {
      assert s[|s| - |suffix|..] == tail[|tail| - |suffix|..];
    } else if EndsWith(s, suffix) {
      assert suffix[|suffix| - |tail|..] == s[|s| - |tail|..] == tail;
    }
  }

  /** How the three sentence endings relate to each other. */
  lemma Endings()
    ensures !EndsWith(AreTyping, IsTyping)
    ensures !EndsWith(Others, IsTyping)
    ensures EndsWith(Others, AreTyping)
  {
    assert AreTyping[1] != IsTyping[0];
    assert Others[|Others| - |IsTyping|] != IsTyping[0];
    assert Others[|Others| - |AreTyping|..] == AreTyping;
  }

  /** `a + b` starts with `a`. */
  lemma StartsWithAppend(a: string, b: string)
    ensures Text.StartsWith(a + b, a)
  {
    assert (a + b)[..|a|] == a;
  }

  /** The sentence is the part naming the typists followed by its ending:
      singular for one typist, plural otherwise. */
  lemma TypingTextSplits(users: seq<Typing.TypingUser>)
    requires |users| > 0
    ensures var tail := if |users| == 1 then IsTyping else if |users| == 2 then AreTyping else Others;
      && |tail| <= |TypingText(users).value|
      && TypingText(users).value == TypingText(users).value[..|TypingText(users).value| - |tail|] + tail
      && Text.StartsWith(TypingText(users).value, users[0].username)
  {
    var name := users[0].username;
    if |users| == 1 {
      StartsWithAppend(name, IsTyping);
    } else if |users| == 2 {
      StartsWithAppend(name, And + users[1].username + AreTyping);
      assert name + And + users[1].username + AreTyping == name + (And + users[1].username + AreTyping);
    } else {
      var count := Text.IntToString(|users| - 1);
      StartsWithAppend(name, And + count + Others);
      assert name + And + count + Others == name + (And + count + Others);
    }
  }

  /** Ending with `b`, which ends with `c`, is ending with `c`. */
  lemma EndsWithTrans(a: string, b: string, c: string)
    requires EndsWith(a, b) && EndsWith(b, c)
    ensures EndsWith(a, c)
  {
    assert a[|a| - |c|..] == b[|b| - |c|..];
  }

  /** The singular ending appears exactly for one typist. */
  lemma SingularVerb(users: seq<Typing.TypingUser>)
    requires |users| > 0
    ensures EndsWith(TypingText(users).value, IsTyping) <==> |users| == 1
  {
    var s := TypingText(users).value;
    var tail := if |users| == 1 then IsTyping else if |users| == 2 then AreTyping else Others;
    TypingTextSplits(users);
    Endings();
    EndsWithTail(s[..|s| - |tail|], tail, IsTyping);
  }

  /** The plural ending appears exactly for two typists or more. */
  lemma PluralVerb(users: seq<Typing.TypingUser>)
    requires |users| > 0
    ensures EndsWith(TypingText(users).value, AreTyping) <==> |users| >= 2
  {
    var s := TypingText(users).value;
    var tail := if |users| == 1 then IsTyping else if |users| == 2 then AreTyping else Others;
    TypingTextSplits(users);
    Endings();
    EndsWithTail(s[..|s| - |tail|], tail, AreTyping);
    EndsWithTail(s[..|s| - |tail|], tail, tail);
    if |users| > 2 {
      EndsWithTrans(s, Others, AreTyping);
    }
  }

  /** The sentence always opens with the first typist's name, and its verb
      agrees with the number of typists: singular for exactly one. */
  lemma TypingTextAgrees(users: seq<Typing.TypingUser>)
    requires |users| > 0
    ensures Text.StartsWith(TypingText(users).value, users[0].username)
    ensures |users| == 1 ==> TypingText(users).value[|users[0].username|..] == IsTyping
    ensures EndsWith(TypingText(users).value, IsTyping) <==> |users| == 1
    ensures EndsWith(TypingText(users).value, AreTyping) <==> |users| >= 2
  {
    TypingTextSplits(users);
    SingularVerb(users);
    PluralVerb(users);
    if |users| == 1 {
      assert TypingText(users).value[|users[0].username|..] == IsTyping;
    }
  }

  /** Two typists are both named, in list order, joined by " and ". */
  lemma TwoTypistsNamedInOrder(users: seq<Typing.TypingUser>)
    requires |users| == 2
    ensures EndsWith(TypingText(users).value, AreTyping)
    ensures var s := TypingText(users).value;
      s[..|s| - |AreTyping|] == users[0].username + And + users[1].username
  {
    var s := TypingText(users).value;
    assert s[|s| - |AreTyping|..] == AreTyping;
  }

  /** The count in the "others" sentence reads back as the number of typists
      besides the first. */
  lemma OthersCountReadsBack(users: seq<Typing.TypingUser>)
    requires |users| >= 3
    ensures exists count :: (TypingText(users) == Some(users[0].username + And + count + Others)
      && Text.ParseInt(count) == Some(|users| - 1))
  {
    var count := Text.IntToString(|users| - 1);
    Text.IntToStringRoundTrip(|users| - 1);
    assert Text.ParseInt(count) == Some(|users| - 1);
  }
}

=== FILE: wrappers.dfy ===
/** Failure-carrying datatypes shared by the chat model.
- Option<T> stands for a TypeScript value that may be `null` or `undefined`.
- Result<T, E> stands for a call that either returns a value or throws / reports an error.
 */
module Wrappers {

  datatype Option<+T> = None | Some(value: T) {

    /** The wrapped value, or `default` when absent (TypeScript's `??`). */
    function GetOr(default: T): T {
      match this
      case Some(v) => v
      case None => default
    }
  }

  datatype Result<+T, +E> = Ok(value: T) | Err(error: E)
}
